=== FILE: README.md ===
# Poker hand engine: a Dafny model

This project models the betting-round state machine of a 6-max no-limit
hold'em hand recorder, together with the pure list logic of its saved-hand
history. The model is written in Dafny and its properties are proved there.

**The engine** (`PokerHandEngine`) tracks one hand.
- Six seats sit in the fixed order SB, BB, UTG, HJ, CO, BTN. Each seat has a stack, a contribution this street, a contribution this hand, a folded flag and an acted-this-street flag.
- A street record holds the phase, the pot, the pot at the street's start, the bet to match, the last aggressor, and the raise count.
- Construction posts the blinds: 0.5 from SB and 1.0 from BB.
- `recordAction` validates Fold, Check, Call, Bet and Raise, caps every amount at the player's stack, and logs the action.
- `addPreflopAction` first folds every seat that its "skip" passes over.
- The turn moves to the next seat that has not folded and still has chips.
- A street ends when everybody has acted and matched the bet, with the big blind keeping its option on an unraised preflop street. When the street ends, the hand either ends on the river or waits for the next board card. Once every remaining player is all-in, confirming a board runs on to the next street.
- The queries report:
  - the current actor;
  - the action menu;
  - the raise label;
  - the pot breakdown;
  - completion and its kind;
  - the stored result.

**The hand history** (`handStorage`) turns the board into a card list and
each logged action into a display line. It keeps a list of saved hands under
one storage key:
- saving prepends the new hand;
- listing sorts the hands newest first;
- deleting filters by id;
- updating patches the memo and favourite fields of one hand.

The model is functional. The engine is an immutable `Engine` value, and each
operation is a function from state to state. The source's exceptions become
`Result`/`Outcome` values. The stored key becomes an `Option<seq<SavedHand>>`,
which is passed in and returned.

Files:
- `wrappers.dfy`: Option, Result and Min.
- `poker_types.dfy`: the shared enumerations, seat order, records and display names.
- `engine_state.dfy`: the engine datatypes, the thresholds, the invariant and the next-seat search.
- `recording.dfy`: `recordAction` and the auto-fold loop.
- `street_flow.dfy`: street completion, turn advance, street preparation and board confirmation.
- `invariants.dfy`: proofs that every step keeps chip conservation and the other invariants.
- `engine_api.dfy`: construction and the two entry points.
- `engine_queries.dfy`: the queries.
- `skip_proof.dfy`: the exact set of seats the preflop skip folds.
- `engine_properties.dfy`: properties that relate several operations.
- `scenarios.dfy`: whole hands played through the model.
- `hand_format.dfy`: the board and action-line formatters, with decoders.
- `hand_storage.dfy`: the saved-hand list.

Chip amounts are `real`. Both thresholds are kept exactly:
- a player can still act when `stack > 0.01`;
- a player counts as all-in for matching when `stack < 0.01`.

A stack of exactly 0.01 falls between the two.

The preflop skip follows the code's own comments only in part, and the model
follows the code:
- The comment in `addPreflopAction` (lib/PokerHandEngine.ts:212) says the players "between" the current actor and the acting seat are folded. The doc comment of `autoFoldBetween` (lib/PokerHandEngine.ts:226) says the start seat is included, and the loop (lib/PokerHandEngine.ts:229-238) does fold it. So the skip folds the current actor too, when that seat is still in.

Two more behaviours of the preflop entry point are modelled as the code has them:
- A big-blind Call straight after construction skips from UTG to BB and folds the five other seats. The big blind then has nothing to call, so the call is refused. The five folds stay applied, and the hand is over (`Scenarios.RefusedBigBlindCallLeavesFolds`).
- After a skip, the turn advances from the current-actor index that the skip left unchanged, not from the seat that acted (see Findings).

Three behaviours of the code are kept as written:
- Fold is accepted when a check is available.
- A Raise whose target is below the player's own contribution is accepted. It takes chips back out of the pot.
- A refused preflop action leaves its skip folds applied.

## Model

| member | source | states |
|---|---|---|
| PokerTypes.IndexOf | lib/PokerHandEngine.ts:12-15 | seats are numbered in the order SB, BB, UTG, HJ, CO, BTN, and the number maps back to the same position |
| EngineApi.Init | lib/PokerHandEngine.ts:65-106 | the constructor has SB post 0.5 and BB post 1.0 as street and hand contributions (not as logged actions), leaves every other seat at 0, takes the blinds off the stacks, makes the pot and the street's starting pot 1.5 and the bet 1.0, puts UTG first, marks the hero, and establishes chip conservation and pot balance; every stack is non-negative when the starting stack is at least 1 |
| EngineState.NextActive | lib/PokerHandEngine.ts:126-136 | the seat returned can act and is the nearest clockwise from the start; none is returned exactly when no unfolded seat has more than 0.01 |
| Recording.RecordAction | lib/PokerHandEngine.ts:270-393 | the action is refused exactly on the source's error conditions: an already-folded player, Check facing a bet, Call with nothing to call, Bet over a bet or without a positive size, Raise without a positive size. When accepted, only that seat changes and its stack plus total stays constant; the pot grows by what it added; the log and the street's action list each gain the same one entry with the amount actually put in (for Fold and Check, the size the caller passed); a Call is capped at the stack; a Bet adds at most the stack; a Raise goes to its target capped at stack plus contribution; only a Bet or a Raise sets the bet level, the aggressor and the raise count |
| Recording.FoldSeat | lib/PokerHandEngine.ts:232-234 | a skip fold is an ordinary recorded Fold and only adds folds and log entries |
| Recording.AutoFold | lib/PokerHandEngine.ts:229-238 | the skip loop terminates, changes nothing but folds and logged Folds, and folds its starting seat |
| SkipProof.AutoFoldFoldsSkipped | lib/PokerHandEngine.ts:229-238 | the skip folds exactly, and in order: the starting seat if still in, then every seat clockwise before the target that can act (or every such seat, if the target cannot act), each one once |
| StreetFlow.IsStreetComplete | lib/PokerHandEngine.ts:443-509 | a street is complete exactly when at most one player remains, or nobody can act, or everyone who can act has acted and matched the bet and the big-blind option is not pending. The last-aggressor and no-next-seat checks never change the answer |
| StreetFlow.SetPostflopFirstActor | lib/PokerHandEngine.ts:540-563 | the first postflop actor is the first seat from SB that can act; the engine waits for the board when nobody can act; nothing else changes |
| StreetFlow.ResetStreetFacts | lib/PokerHandEngine.ts:516-519 | clearing the street contributions leaves no street money, keeps every seat's hand total, and keeps who can act |
| StreetFlow.PrepareNextStreet | lib/PokerHandEngine.ts:514-535 | the phase moves one step; stacks, totals and folds are kept; the pot becomes the starting pot; the bet, aggressor and raise count are reset; the invariant is kept |
| StreetFlow.Advance | lib/PokerHandEngine.ts:398-437 | with one player left there is no actor; a completed river ends the hand; a completed earlier street prepares the next street and waits for the board; otherwise the turn passes to the next seat that can act; the invariant is kept |
| StreetFlow.AdvancePasses | lib/PokerHandEngine.ts:398-437 | advancing after a recorded action, whatever turn index it starts from: with at most one player left or a completed river nobody is to act, a completed earlier street moves to the next phase and waits for its board, and an open street stays in its phase with a seat that can act |
| StreetFlow.ConfirmBoard | lib/PokerHandEngine.ts:568-613 | on the river it stops waiting and ends the hand if nobody can act; on the flop or turn it does nothing unless waiting; if anyone can act it only stops waiting; if nobody can act it prepares the following street and keeps waiting |
| Invariants.RecordKeeps | lib/PokerHandEngine.ts:291-356 | a recorded action keeps chip conservation, pot balance and non-negative stacks; folds are never undone; the phase does not go back; the log only grows at its end |
| Invariants.AdvanceKeeps | lib/PokerHandEngine.ts:398-437 | advancing the turn keeps the invariants and moves at most one street forward |
| Invariants.ConfirmBoardKeeps | lib/PokerHandEngine.ts:568-613 | confirming a board keeps the invariants and moves at most one street forward |
| Invariants.OnlyFoldsKeeps | lib/PokerHandEngine.ts:229-238 | a run of skip folds keeps the invariants |
| EngineApi.AddPreflopAction | lib/PokerHandEngine.ts:204-222 | preflop only; the call is refused exactly when the action, after the skip, is refused, and the skip folds then stay; when accepted, the result is the skip folds followed by the action as recordAction records it (same log, pot and actor's stack), the invariants hold; after recording, with at most one player left or a completed river nobody is to act, a completed preflop, flop or turn moves to the next phase and waits for its board, and a street still open keeps its phase with a seat that can act, and that seat is the first after the one that acted (corrected) |
| EngineApi.AddPreflopActionAsWritten | lib/PokerHandEngine.ts:204-222 | the entry point as written: preflop only; the call is refused exactly when the action, after the skip, is refused, and the skip folds then stay; when accepted, the result is the skip folds followed by the action as recordAction records it (same log, pot and actor's stack), the invariants hold; after recording, with at most one player left or a completed river nobody is to act, a completed preflop, flop or turn moves to the next phase and waits for its board, and a street still open keeps its phase with a seat that can act, and that seat is the first that can act after the seat that was to act before the call, not after the seat that acted |
| EngineApi.AddPostflopAction | lib/PokerHandEngine.ts:248-260 | refused exactly in the preflop phase, out of turn, or when the action is refused, and then nothing changes; when accepted, the action is recorded as recordAction records it (same log, pot and actor's stack), the invariants hold; after recording, with at most one player left or a completed river nobody is to act, a completed preflop, flop or turn moves to the next phase and waits for its board, and a street still open keeps its phase with a seat that can act, and that seat is the next one after the actor |
| EngineQueries.CanCheck | lib/PokerHandEngine.ts:148-154 | a folded player cannot check; otherwise the seat can check exactly when recordAction accepts a Check from it |
| EngineProperties.HandCompleteMeansNoTurn | lib/PokerHandEngine.ts:634-642 | isHandComplete: a complete hand shows nobody to act and is exactly the kind of hand that accepts a result; while no board is awaited it is complete exactly when nobody is shown to act; with two or more players left and a seat to act it is not complete |
| EngineQueries.IsReadyForResult | lib/PokerHandEngine.ts:805-808 | ready exactly when setHandResult would accept a result and none is stored yet |
| EngineQueries.CurrentActor | lib/PokerHandEngine.ts:118-121 | there is no actor exactly when the hand is complete or the engine waits for the board; otherwise it is the position of the actor index |
| EngineQueries.AvailableActions | lib/PokerHandEngine.ts:169-194 | nothing for a folded player; Check exactly when the player can check; Fold exactly with Call, exactly when facing a bet; Bet exactly postflop with no bet and a check available; Raise otherwise; no duplicates |
| EngineQueries.GetPotDetails | lib/PokerHandEngine.ts:720-726 | the starting pot plus what was added this street is the pot |
| EngineQueries.RaiseLabel | lib/PokerHandEngine.ts:752-763 | preflop: "Open", then "(n+2)-bet" in decimal; postflop: "Bet" exactly when there is no bet; with a bet out, "Raise" exactly when the raise count is 1, otherwise "Re-raise" |
| EngineQueries.SetHandResult | lib/PokerHandEngine.ts:788-793 | refused exactly when the hand is not complete; otherwise only the result is stored |
| EngineQueries.GetCompletionType | lib/PokerHandEngine.ts:813-829 | a fold ending exactly with one player left; an all-in ending exactly when, with other than exactly one left, nobody can act (this includes no player left at all); a showdown otherwise |
| EngineProperties.OfferedIsAccepted | lib/PokerHandEngine.ts:169-194 | every action the menu offers is accepted by recordAction, given a positive size for a Bet or a Raise |
| EngineProperties.UnofferedCheckOrCallRefused | lib/PokerHandEngine.ts:291-312 | a Check or a Call the menu leaves out is refused |
| EngineProperties.FoldAcceptedWhenCheckAvailable | lib/PokerHandEngine.ts:291-293 | the menu hides Fold from a player who can check, but recordAction accepts the Fold and folds the player |
| EngineProperties.BetLabelMatchesMenu | lib/PokerHandEngine.ts:752-763 | postflop, the label reads "Bet" exactly when the menu offers Bet rather than Raise |
| EngineProperties.AddedThisStreetIsStreetContributions | lib/PokerHandEngine.ts:720-726 | under the invariant, "added this street" is the sum of street contributions, less the blinds preflop, and the total pot is the sum of all contributions |
| EngineProperties.ResultStoredOnce | lib/PokerHandEngine.ts:788-808 | when a result can be entered it is stored, the hand stays complete, and no further result is expected |
| EngineProperties.NoResultWhileSomeoneActs | lib/PokerHandEngine.ts:788-808 | while someone is to act, no result can be set |
| EngineProperties.LastPlayerEndsHand | lib/PokerHandEngine.ts:398-402 | when one player is left, advancing ends the hand as a fold with a result expected |
| EngineProperties.StreetEndWaitsForBoard | lib/PokerHandEngine.ts:398-437 | a street completed before the river opens the next one, waits for the board with no actor shown, and carries the pot |
| EngineProperties.RiverEndCompletesHand | lib/PokerHandEngine.ts:398-437 | a completed river ends the hand |
| EngineProperties.FirstPostflopActorIsSB | lib/PokerHandEngine.ts:540-563 | SB acts first on the next street exactly when SB can act |
| EngineProperties.AllInRunout | lib/PokerHandEngine.ts:568-613 | with nobody able to act after the flop, the turn and river boards are still asked for, the pot is carried, and the third confirmation ends the hand as all-in |
| EngineProperties.PotGrowsUnlessLowRaise | lib/PokerHandEngine.ts:338-352 | the pot never shrinks and no stack goes negative, unless a Raise targets less than the player's own contribution |
| EngineProperties.LowRaiseShrinksPot | lib/PokerHandEngine.ts:338-352 | such a Raise is accepted: BB raising to 0.5 at the start takes half a blind out of the pot and lowers the bet |
| Scenarios.ButtonOpenHandsTurnToSmallBlind | lib/PokerHandEngine.ts:204-238 | BTN opening to 3 folds UTG, HJ and CO in that order, logs the raise after them, and hands the turn to SB (corrected) |
| Scenarios.ButtonOpenAsWrittenLeavesButtonToAct | lib/PokerHandEngine.ts:204-222 | as written, the same opening shows BTN, who just raised, as next to act |
| Scenarios.AsWrittenSmallBlindFoldFoldsRaiser | lib/PokerHandEngine.ts:204-238 | as written, SB folding next folds BTN too and ends the hand as a fold |
| Scenarios.SmallBlindFoldHandsTurnToBigBlind | lib/PokerHandEngine.ts:204-222 | corrected, SB folding keeps BTN's raise and hands the turn to BB |
| Scenarios.RefusedBigBlindCallLeavesFolds | lib/PokerHandEngine.ts:204-238 | a BB Call straight after construction folds the five other seats and is then refused, so only BB is left and the hand is over |
| Scenarios.BigBlindChecksPreflop | lib/PokerHandEngine.ts:443-509 | after a limp, the big blind's check closes the preflop street and the flop waits for its board |
| Scenarios.CheckedDownHandEndsComplete | lib/PokerHandEngine.ts:398-613 | SB limps, BB checks, and both check every street; the hand ends complete at showdown with no actor, 12 actions and a pot of 2 (corrected) |
| HandFormat.FormatBoard | lib/handStorage.ts:42-58 | at most five cards: the flop's three cards in order whenever a flop is set, even empty ones, then the turn and the river, each only when present and not empty |
| HandFormat.FormatBoardRoundTrip | lib/handStorage.ts:42-58 | a board with a flop, and a river only after a turn, is read back from its card list unchanged (empty cards read as missing) |
| HandFormat.RiverWithoutTurnShifts | lib/handStorage.ts:49-55 | a river entered without a turn lands in the turn's slot of the card list |
| HandFormat.DecodeActionLine | lib/handStorage.ts:21-36 | every display line reads back as its action's phase, position and action, and shows a size exactly when the action has one; the size shown is the action's own size as the number format prints it, followed by "bb"; this holds whatever the number format prints |
| HandFormat.FormatActions | lib/handStorage.ts:21-36 | one line per action, in order, each reading back as that action with its own size |
| HandStorage.SortNewest | lib/handStorage.ts:119-122 | the sort returns the same hands, newest first |
| HandStorage.SortStable | lib/handStorage.ts:119-122 | hands with equal timestamps keep their stored order |
| HandStorage.SortKeepsSorted | lib/handStorage.ts:119-122 | a list already newest first is returned unchanged |
| HandStorage.GetAllHands | lib/handStorage.ts:107-127 | nothing is listed when nothing usable is stored; otherwise the stored hands, newest first |
| HandStorage.GetAllHandsStable | lib/handStorage.ts:107-127 | hands saved at the same moment are listed in stored order |
| HandStorage.NewHand | lib/handStorage.ts:81-90 | the new record carries the given id, time, hero, villain type and pot, the formatted board, one decodable line per action, and no memos |
| HandStorage.SaveHand | lib/handStorage.ts:76-96 | the written list puts the new hand at index 0, followed by the existing hands as getAllHands lists them, unchanged and in order; it holds exactly the stored hands plus the new one |
| HandStorage.SaveThenList | lib/handStorage.ts:78-93 | a hand saved no earlier than every stored hand is listed first, followed by the earlier list unchanged and in order |
| HandStorage.DeleteHand | lib/handStorage.ts:132-145 | exactly the hands carrying the id are removed, every other hand keeps its multiplicity, and the list stays newest first |
| HandStorage.DeleteKeepsOrder | lib/handStorage.ts:139-141 | the hands kept come out in the order they were listed |
| HandStorage.DeleteRemovesOnlyThatId | lib/handStorage.ts:139-141 | afterwards no hand carries the id, and every other id is held exactly as before |
| HandStorage.DeleteIdempotent | lib/handStorage.ts:132-145 | deleting an id twice is the same as deleting it once |
| HandStorage.ApplyPatch | lib/handStorage.ts:176 | the patch changes only the location memo, the other memo and the favourite flag; a key it leaves out keeps its value, and a key present with no value clears it |
| HandStorage.UpdateHand | lib/handStorage.ts:166-182 | with no hand carrying the id, the stored value is unchanged (not even re-sorted); otherwise the sorted list is written with the first hand carrying the id patched and every other hand as it was |
| HandStorage.UpdateIdempotent | lib/handStorage.ts:166-182 | applying the same update twice is the same as applying it once |
| HandStorage.ClearAllHands | lib/handStorage.ts:150-161 | after the key is removed, nothing is listed |

## Left out

- Debug logging (`addDebugLog`, lib/debugLogger.ts): it is a process-global log with no effect on the engine.
- `generateUUID`, `Date.now` and the opponent type and style tags on actions: ids and timestamps are opaque inputs, and the tags are never read by engine logic. Logged actions carry no id, timestamp or tags.
- `localStorage`, `JSON.parse`/`JSON.stringify`, the `typeof window` guards and the `catch` branches in lib/handStorage.ts: this is I/O. The storage key is a value passed in and returned, and an unparseable or empty entry is the same as a missing one.
- `toFixed(1)`: the number format is a parameter `fmt`, and the line properties hold for every format.
- The trivial getters and `getState`, `getHandResult`, `exportToPokerHand`, `needsToCall` and `canAdvanceStreet` (which returns the waiting flag): they copy state out and decide nothing.
- `forceAdvanceToNextStreet` and `advanceToNextStreet` (lib/PokerHandEngine.ts:625-658): each is `ConfirmBoard` guarded by the waiting flag. On the flop and turn `StreetFlow.ConfirmBoard` already does nothing when not waiting. On the river it ignores the flag and clears the actor when nobody can act, so there the guard would differ from a plain `ConfirmBoard` only in a river state that has an actor while nobody can act. The engine reaches no such state, because every actor it sets on the river can act, but the model does not prove this reachability fact.
- Calling the preflop entry point when the hand has already ended (no current actor): the source would read seat -1 and fail with a type error. The model refuses the call with `NoCurrentActor` and changes nothing.
- The React components, hooks and the old reducer: these are UI glue.
- The constructor's default `stackSize = 100`: `EngineApi.Init` always takes the stack explicitly, as every caller of the constructor passes it.
- EngineProperties.PotGrowsUnlessLowRaise: it requires a non-negative stack, because with a negative starting stack the cap could lower the pot.
- HandFormat.FormatActions: the `phase || 'Preflop'` fallback is not modelled, because a typed phase is never falsy.

## Findings

| source | as written | input that shows it | evidently intended | confidence | as-written member | corrected member |
|---|---|---|---|---|---|---|
| lib/PokerHandEngine.ts:204-222 | after the skip folds, `advanceToNextActor` steps from `currentActorIndex`, which the skip never moves to the acting seat | a fresh hand, then BTN Raise 3: UTG, HJ and CO are folded, but BTN, not SB, is shown to act; then SB Fold skips from BTN, folds the raiser and ends the hand | the turn advances from the seat that just acted, so SB and then BB are to act (old/debug_btn.ts:32-35 and old/test_poker_rules.ts:57-67 expect this) | high, not executed | EngineApi.AddPreflopActionAsWritten, Scenarios.ButtonOpenAsWrittenLeavesButtonToAct, Scenarios.AsWrittenSmallBlindFoldFoldsRaiser | EngineApi.AddPreflopAction, Scenarios.ButtonOpenHandsTurnToSmallBlind, Scenarios.SmallBlindFoldHandsTurnToBigBlind |

=== FILE: engine_api.dfy ===
/** The public operations of PokerHandEngine: construction with blinds, the
    preflop and postflop entry points, and the queries. */
module EngineApi {
  import opened Wrappers
  import opened PokerTypes
  import opened EngineState
  import opened Recording
  import opened StreetFlow
  import opened Invariants

  /** What an entry point leaves behind: the new state, or the error it raised
      together with the state as the failed call left it. */
  datatype Outcome = Accepted(engine: Engine) | Rejected(error: EngineError, engine: Engine)

  function NewPlayer(pos: Position, hero: Option<Position>, stackSize: real, blind: real): Player
  {
    Player(stackSize - blind, blind, blind, false, hero == Some(pos), false)
  }

  /** The constructor: every seat starts with `stackSize`, SB posts 0.5 and BB
      posts 1.0 (as contributions, not logged actions), the pot is 1.5, the bet
      to match is 1.0 and UTG is first to act. */
  function Init(hero: Option<Position>, stackSize: real): (r: Engine)
    ensures Inv(r) && r.stackSize == stackSize
    ensures stackSize >= 1.0 ==> Solvent(r)
    ensures r.street.phase == Preflop && r.street.pot == 1.5 && r.street.currentBet == 1.0
    ensures r.street.raiseCount == 0 && r.street.lastAggressor.None?
    ensures r.street.streetStartingPot == 1.5
    ensures r.players[IndexOf(SB)].contributed == r.players[IndexOf(SB)].totalContributed == 0.5
    ensures r.players[IndexOf(BB)].contributed == r.players[IndexOf(BB)].totalContributed == 1.0
    ensures forall i: Idx :: i >= 2 ==> r.players[i].contributed == r.players[i].totalContributed == 0.0
    ensures forall i: Idx :: r.players[i].stack + r.players[i].totalContributed == stackSize
    ensures r.actor == Some(IndexOf(UTG)) && !r.waitingForBoard && r.actions == [] && r.handResult.None?
    ensures forall i: Idx :: !r.players[i].folded && !r.players[i].hasActed
    ensures forall i: Idx :: r.players[i].isHero <==> hero == Some(PositionAt(i))
  {
    var ps: Table := [NewPlayer(SB, hero, stackSize, 0.5), NewPlayer(BB, hero, stackSize, 1.0),
                      NewPlayer(UTG, hero, stackSize, 0.0), NewPlayer(HJ, hero, stackSize, 0.0),
                      NewPlayer(CO, hero, stackSize, 0.0), NewPlayer(BTN, hero, stackSize, 0.0)];
    Engine(ps, Street(Preflop, 1.5, 1.5, 1.0, None, [], 0), [], hero, stackSize,
           Some(PreflopStart), false, None)
  }

  /** The seats passed over by a preflop action of seat `t`, folded. */
  function SkipTo(e: Engine, t: Idx): (r: Engine)
    requires e.actor.Some?
    ensures OnlyFolds(e, r)
  {
    if e.actor.value != t then AutoFold(e, e.actor.value, t) else e
  }

  /** Records the action of seat `t` and advances the turn from `t`. */
  function ActFrom(e: Engine, t: Idx, a: ActionType, size: Option<real>): (r: Outcome)
    ensures r.Rejected? <==> Refused(e, t, a, size)
    ensures r.Rejected? ==> r.engine == e && r.error == RecordAction(e, t, a, size).error
    ensures r.Accepted? ==> Forward(e, r.engine) && AtMostOneStreet(e, r.engine) && Keeps(e, r.engine)
    ensures r.Accepted? && r.engine.street.phase == e.street.phase && r.engine.actor.Some? ==>
      r.engine.actor == NextActive(r.engine.players, Some(t))
    ensures r.Accepted? ==> TurnPassed(RecordAction(e, t, a, size).value, r.engine)
  {
    match RecordAction(e, t, a, size)
    case Failure(err) => Rejected(err, e)
    case Success(e1) =>
      var r := Advance(e1.(actor := Some(t)));
      AdvancePasses(e1.(actor := Some(t)), e1);
      RecordKeeps(e, t, a, size);
      AdvanceKeeps(e1.(actor := Some(t)));
      ForwardTransitive(e, e1, r);
      Accepted(r)
  }

  /** addPreflopAction with the turn advanced from the seat that just acted.
      Preflop only. Every seat passed over is folded first, and those folds
      stay even when the action itself is then refused. */
  function AddPreflopAction(e: Engine, pos: Position, a: ActionType, size: Option<real>): (r: Outcome)
    ensures e.street.phase != Preflop ==> r == Rejected(NotPreflop, e)
    ensures e.street.phase == Preflop && e.actor.None? ==> r == Rejected(NoCurrentActor, e)
    ensures e.street.phase == Preflop && e.actor.Some? ==>
      && (r.Rejected? <==> Refused(SkipTo(e, IndexOf(pos)), IndexOf(pos), a, size))
      && (r.Rejected? ==> r.engine == SkipTo(e, IndexOf(pos)))
    ensures r.Rejected? ==> OnlyFolds(e, r.engine)
    // an accepted call is the skip folds, then the action recorded by recordAction,
    // then only the turn advanced: the log, pot and actor's stack are as recorded
    ensures e.street.phase == Preflop && e.actor.Some? && r.Accepted? ==>
      && RecordAction(SkipTo(e, IndexOf(pos)), IndexOf(pos), a, size).Success?
      && r.engine.actions == RecordAction(SkipTo(e, IndexOf(pos)), IndexOf(pos), a, size).value.actions
      && r.engine.street.pot == RecordAction(SkipTo(e, IndexOf(pos)), IndexOf(pos), a, size).value.street.pot
      && r.engine.players[IndexOf(pos)].stack == RecordAction(SkipTo(e, IndexOf(pos)), IndexOf(pos), a, size).value.players[IndexOf(pos)].stack
    // after recording, the turn advances: the hand ends, the next street opens
    // and waits for its board, or the street goes on with someone to act
    ensures e.street.phase == Preflop && e.actor.Some? && r.Accepted? ==>
      TurnPassed(RecordAction(SkipTo(e, IndexOf(pos)), IndexOf(pos), a, size).value, r.engine)
    ensures r.Accepted? ==> Forward(e, r.engine) && AtMostOneStreet(e, r.engine) && Keeps(e, r.engine)
    // while the street goes on, the turn passes to the first seat after `pos` that can act
    ensures r.Accepted? && r.engine.street.phase == e.street.phase && r.engine.actor.Some? ==>
      r.engine.actor == NextActive(r.engine.players, Some(IndexOf(pos)))
  {
    if e.street.phase != Preflop then Rejected(NotPreflop, e)
    else if e.actor.None? then Rejected(NoCurrentActor, e)
    else
      var t := IndexOf(pos);
      var skipped := SkipTo(e, t);
      var r := ActFrom(skipped, t, a, size);
      OnlyFoldsKeeps(e, skipped);
      if r.Accepted? then
        ForwardTransitive(e, skipped, r.engine);
        r
      else r
  }

  /** addPreflopAction as the source writes it: skip-fold the seats between the
      current actor and `pos`, record the action, then advance the turn, but
      from the current-actor index, which the skip never moved to `pos`. */
  function AddPreflopActionAsWritten(e: Engine, pos: Position, a: ActionType, size: Option<real>): (r: Outcome)
    ensures e.street.phase != Preflop ==> r == Rejected(NotPreflop, e)
    ensures e.street.phase == Preflop && e.actor.None? ==> r == Rejected(NoCurrentActor, e)
    ensures e.street.phase == Preflop && e.actor.Some? ==>
      && (r.Rejected? <==> Refused(SkipTo(e, IndexOf(pos)), IndexOf(pos), a, size))
      && (r.Rejected? ==> r.engine == SkipTo(e, IndexOf(pos)))
    ensures r.Rejected? ==> OnlyFolds(e, r.engine)
    // an accepted call is the skip folds, then the action recorded by recordAction,
    // then only the turn advanced: the log, pot and actor's stack are as recorded
    ensures e.street.phase == Preflop && e.actor.Some? && r.Accepted? ==>
      && RecordAction(SkipTo(e, IndexOf(pos)), IndexOf(pos), a, size).Success?
      && r.engine.actions == RecordAction(SkipTo(e, IndexOf(pos)), IndexOf(pos), a, size).value.actions
      && r.engine.street.pot == RecordAction(SkipTo(e, IndexOf(pos)), IndexOf(pos), a, size).value.street.pot
      && r.engine.players[IndexOf(pos)].stack == RecordAction(SkipTo(e, IndexOf(pos)), IndexOf(pos), a, size).value.players[IndexOf(pos)].stack
    // after recording, the turn advances: the hand ends, the next street opens
    // and waits for its board, or the street goes on with someone to act
    ensures e.street.phase == Preflop && e.actor.Some? && r.Accepted? ==>
      TurnPassed(RecordAction(SkipTo(e, IndexOf(pos)), IndexOf(pos), a, size).value, r.engine)
    ensures r.Accepted? ==> Forward(e, r.engine) && AtMostOneStreet(e, r.engine) && Keeps(e, r.engine)
    // while the street goes on, the turn passes to the first seat that can act
    // after the seat that was to act before the call, not after `pos`
    ensures r.Accepted? && r.engine.street.phase == e.street.phase && r.engine.actor.Some? ==>
      r.engine.actor == NextActive(r.engine.players, e.actor)
  {
    if e.street.phase != Preflop then Rejected(NotPreflop, e)
    else if e.actor.None? then Rejected(NoCurrentActor, e)
    else
      var t := IndexOf(pos);
      var skipped := SkipTo(e, t);
      OnlyFoldsKeeps(e, skipped);
      match RecordAction(skipped, t, a, size)
      case Failure(err) => Rejected(err, skipped)
      case Success(e1) =>
        var r := Advance(e1);
        AdvancePasses(e1, e1);
        RecordKeeps(skipped, t, a, size);
        AdvanceKeeps(e1);
        ForwardTransitive(skipped, e1, r);
        ForwardTransitive(e, skipped, r);
        Accepted(r)
  }

  /** addPostflopAction: only after the preflop street and only by the current
      actor; records the action and advances the turn. A refused call changes
      nothing. */
  function AddPostflopAction(e: Engine, pos: Position, a: ActionType, size: Option<real>): (r: Outcome)
    ensures r.Rejected? <==>
      e.street.phase == Preflop || e.actor != Some(IndexOf(pos)) || Refused(e, IndexOf(pos), a, size)
    ensures r.Rejected? ==> r.engine == e
    ensures e.street.phase == Preflop ==> r.error == UsePreflopEntry
    ensures e.street.phase != Preflop && e.actor != Some(IndexOf(pos)) ==> r.error == NotYourTurn
    // an accepted call is the action recorded by recordAction, then only the
    // turn advanced: the log, pot and actor's stack are as recorded
    ensures r.Accepted? ==>
      && RecordAction(e, IndexOf(pos), a, size).Success?
      && r.engine.actions == RecordAction(e, IndexOf(pos), a, size).value.actions
      && r.engine.street.pot == RecordAction(e, IndexOf(pos), a, size).value.street.pot
      && r.engine.players[IndexOf(pos)].stack == RecordAction(e, IndexOf(pos), a, size).value.players[IndexOf(pos)].stack
    // after recording, the turn advances: the hand ends, the next street opens
    // and waits for its board, or the street goes on with someone to act
    ensures r.Accepted? ==>
      TurnPassed(RecordAction(e, IndexOf(pos), a, size).value, r.engine)
    ensures r.Accepted? ==> Forward(e, r.engine) && AtMostOneStreet(e, r.engine) && Keeps(e, r.engine)
    ensures r.Accepted? && r.engine.street.phase == e.street.phase && r.engine.actor.Some? ==>
      r.engine.actor == NextActive(r.engine.players, Some(IndexOf(pos)))
  {
    if e.street.phase == Preflop then Rejected(UsePreflopEntry, e)
    else
      var t := IndexOf(pos);
      if e.actor != Some(t) then Rejected(NotYourTurn, e)
      else
        match RecordAction(e, t, a, size)
        case Failure(err) => Rejected(err, e)
        case Success(e1) =>
          var r := Advance(e1);
          AdvancePasses(e1, e1);
          RecordKeeps(e, t, a, size);
          AdvanceKeeps(e1);
          ForwardTransitive(e, e1, r);
          Accepted(r)
  }
}

=== FILE: engine_properties.dfy ===
/** Properties that tie the engine's operations together: what the action
    menu offers against what recordAction accepts, the raise label against the
    menu, the pot report against the contributions, how streets and hands end,
    and when the pot can shrink. */
module EngineProperties {
  import opened Wrappers
  import opened PokerTypes
  import opened EngineState
  import opened Recording
  import opened StreetFlow
  import opened Invariants
  import opened EngineQueries
  import opened EngineApi

  /** Every action the menu offers passes recordAction's checks, given a
      positive size for a Bet or a Raise. */
  lemma OfferedIsAccepted(e: Engine, pos: Position, a: ActionType, size: Option<real>)
    requires a in AvailableActions(e, pos)
    requires (a == Bet || a == Raise) ==> !NonPositive(size)
    ensures RecordAction(e, IndexOf(pos), a, size).Success?
  {
  }

  /** A Check or a Call the menu leaves out is refused by recordAction. */
  lemma UnofferedCheckOrCallRefused(e: Engine, pos: Position, a: ActionType, size: Option<real>)
    requires a == Check || a == Call
    requires a !in AvailableActions(e, pos)
    ensures RecordAction(e, IndexOf(pos), a, size).Failure?
  {
  }

  /** The menu never offers Fold to a player who can check, but recordAction
      accepts the Fold anyway and folds the player. */
  lemma FoldAcceptedWhenCheckAvailable(e: Engine, pos: Position)
    requires CanCheck(e, pos)
    ensures Check in AvailableActions(e, pos) && Fold !in AvailableActions(e, pos)
    ensures RecordAction(e, IndexOf(pos), Fold, None).Success?
    ensures RecordAction(e, IndexOf(pos), Fold, None).value.players[IndexOf(pos)].folded
  {
  }

  /** Postflop, for a player who can check, the raise label reads "Bet"
      exactly when the menu offers Bet rather than Raise. */
  lemma BetLabelMatchesMenu(e: Engine, pos: Position)
    requires CanCheck(e, pos) && e.street.phase != Preflop
    ensures RaiseLabel(e) == "Bet" <==> Bet in AvailableActions(e, pos)
    ensures RaiseLabel(e) != "Bet" <==> Raise in AvailableActions(e, pos)
  {
  }

  /** In every state that keeps the engine's invariant, what the pot report
      calls "added this street" is what the players put in on this street,
      less the blinds on the preflop street. */
  lemma AddedThisStreetIsStreetContributions(e: Engine)
    requires Inv(e)
    ensures GetPotDetails(e).addedThisStreet == StreetSum(e.players) - Blinds(e.street.phase)
    ensures GetPotDetails(e).totalPot == TotalSum(e.players)
  {
  }

  /** isHandComplete seen through the other queries: a complete hand shows
      nobody to act and is the only kind that accepts a result; while no board
      is awaited it is complete exactly when nobody is shown to act; with two
      or more players left and a seat to act it is not complete. */
  lemma HandCompleteMeansNoTurn(e: Engine, res: HandResult)
    ensures IsHandComplete(e) ==> CurrentActor(e).None?
    ensures IsHandComplete(e) <==> SetHandResult(e, res).Success?
    ensures !e.waitingForBoard ==> (IsHandComplete(e) <==> CurrentActor(e).None?)
    ensures ActiveCount(e.players) >= 2 && e.actor.Some? ==> !IsHandComplete(e)
  {
  }

  /** A result is accepted exactly once: when the hand is ready for it, it is
      stored, the hand stays complete and is no longer ready. */
  lemma ResultStoredOnce(e: Engine, res: HandResult)
    requires IsReadyForResult(e)
    ensures SetHandResult(e, res).Success?
    ensures IsHandComplete(SetHandResult(e, res).value)
    ensures !IsReadyForResult(SetHandResult(e, res).value)
  {
  }

  /** While someone is to act, no result can be set. */
  lemma NoResultWhileSomeoneActs(e: Engine, res: HandResult)
    requires CurrentActor(e).Some?
    ensures SetHandResult(e, res) == Failure(HandNotComplete)
    ensures !IsReadyForResult(e)
  {
  }

  /** When a fold leaves one player, advancing ends the hand: no actor, the
      hand complete, a fold ending, and a result may be entered. */
  lemma LastPlayerEndsHand(e: Engine)
    requires ActiveCount(e.players) == 1 && e.handResult.None?
    ensures Advance(e).actor.None? && CurrentActor(Advance(e)).None?
    ensures IsHandComplete(Advance(e)) && IsReadyForResult(Advance(e))
    ensures GetCompletionType(Advance(e)) == FoldEnd
  {
  }

  lemma ActiveCountOfNextStreet(e: Engine, r: Engine)
    requires NextStreetOf(e, r)
    ensures ActiveCount(r.players) == ActiveCount(e.players)
    ensures AnyCanAct(r.players) == AnyCanAct(e.players)
  {
    assert forall i: Idx :: Live(r.players[i]) == Live(e.players[i]) && CanAct(r.players[i]) == CanAct(e.players[i]);
    assert Live(r.players[0]) == Live(e.players[0]) && Live(r.players[1]) == Live(e.players[1]);
    assert Live(r.players[2]) == Live(e.players[2]) && Live(r.players[3]) == Live(e.players[3]);
    assert Live(r.players[4]) == Live(e.players[4]) && Live(r.players[5]) == Live(e.players[5]);
  }

  /** A street that completes before the river hands over to the board: the
      next street is open, the engine waits, nobody is shown as actor, and the
      hand is not over. */
  lemma StreetEndWaitsForBoard(e: Engine)
    requires ActiveCount(e.players) > 1 && IsStreetComplete(e, None) && e.street.phase != River
    ensures Advance(e).waitingForBoard && CurrentActor(Advance(e)).None?
    ensures !IsHandComplete(Advance(e))
    ensures Advance(e).street.phase == NextPhase(e.street.phase)
    ensures Advance(e).street.pot == Advance(e).street.streetStartingPot == e.street.pot
  {
    ActiveCountOfNextStreet(e, Advance(e));
  }

  /** A street that completes on the river (board already confirmed) ends the
      hand with no actor. */
  lemma RiverEndCompletesHand(e: Engine)
    requires ActiveCount(e.players) > 1 && IsStreetComplete(e, None)
    requires e.street.phase == River && !e.waitingForBoard
    ensures Advance(e).actor.None? && IsHandComplete(Advance(e))
  {
  }

  /** The first postflop actor is SB exactly when SB can act. */
  lemma FirstPostflopActorIsSB(e: Engine)
    requires e.street.phase != River
    ensures PrepareNextStreet(e).actor == Some(IndexOf(SB)) <==> CanAct(e.players[IndexOf(SB)])
  {
    var r := PrepareNextStreet(e);
    assert CanAct(r.players[0]) == CanAct(e.players[0]);
    if CanAct(r.players[0]) {
      assert Dist(-1, r.actor.value) <= Dist(-1, 0);
    }
  }

  /** The all-in runout: from a completed flop where nobody can act but at
      least two players are in, the turn and river boards are still asked for,
      the pot is carried unchanged, and the third confirmation ends the hand
      as an all-in. */
  lemma {:induction false} AllInRunout(e: Engine)
    requires e.street.phase == Flop && e.waitingForBoard
    requires !AnyCanAct(e.players) && ActiveCount(e.players) >= 2
    ensures var t := ConfirmBoard(e);
      && t.street.phase == Turn && t.waitingForBoard && CurrentActor(t).None? && !IsHandComplete(t)
    ensures var rv := ConfirmBoard(ConfirmBoard(e));
      && rv.street.phase == River && rv.waitingForBoard && CurrentActor(rv).None? && !IsHandComplete(rv)
    ensures var r := ConfirmBoard(ConfirmBoard(ConfirmBoard(e)));
      && r.street.phase == River && IsHandComplete(r)
      && GetCompletionType(r) == AllInEnd && r.street.pot == e.street.pot
  {
    var t := ConfirmBoard(e);
    ActiveCountOfNextStreet(e, t);
    var rv := ConfirmBoard(t);
    ActiveCountOfNextStreet(t, rv);
  }

  /** The pot never shrinks on a recorded action unless it is a Raise whose
      target is below what the player already put in this street. */
  lemma PotGrowsUnlessLowRaise(e: Engine, i: Idx, a: ActionType, size: Option<real>)
    requires RecordAction(e, i, a, size).Success?
    requires e.players[i].stack >= 0.0
    requires a == Raise ==> size.Some? && size.value >= e.players[i].contributed
    ensures RecordAction(e, i, a, size).value.street.pot >= e.street.pot
    ensures RecordAction(e, i, a, size).value.players[i].stack >= 0.0
  {
  }

  /** ... and such a Raise is accepted: from the opening state, BB "raising"
      to 0.5 takes half a blind back out of the pot and lowers the bet. */
  lemma LowRaiseShrinksPot(stackSize: real)
    requires stackSize >= 1.0
    ensures var e := Init(None, stackSize);
      var r := RecordAction(e, IndexOf(BB), Raise, Some(0.5));
      && r.Success?
      && r.value.street.pot == 1.0 < e.street.pot
      && r.value.street.currentBet == 0.5
  {
    var e := Init(None, stackSize);
    assert e.players[1].contributed == 1.0;
  }
}

=== FILE: engine_queries.dfy ===
/** The engine's queries: whose turn it is, what they may do, the pot, the
    label of the next raise, completion, and the stored result. */
module EngineQueries {
  import opened Wrappers
  import opened PokerTypes
  import opened EngineState
  import opened Recording
  import opened StreetFlow

  /** isHandComplete: at most one player left, or no actor and no board awaited. */
  predicate IsHandComplete(e: Engine)
  {
    ActiveCount(e.players) <= 1 || (e.actor.None? && !e.waitingForBoard)
  }

  /** getCurrentActor: nobody while the hand is over or a board is awaited. */
  function CurrentActor(e: Engine): (r: Option<Position>)
    ensures r.None? <==> IsHandComplete(e) || e.waitingForBoard
    ensures r.Some? ==> e.actor.Some? && r.value == PositionAt(e.actor.value)
  {
    if IsHandComplete(e) || e.waitingForBoard then None
    else Some(PositionAt(e.actor.value))
  }

  /** canCheck: not folded and already level with the bet. It answers
      exactly what recordAction decides about a Check from that seat. */
  predicate CanCheck(e: Engine, pos: Position): (r: bool)
    ensures e.players[IndexOf(pos)].folded ==> !r
    ensures forall size :: r <==> RecordAction(e, IndexOf(pos), Check, size).Success?
  {
    var p := e.players[IndexOf(pos)];
    !p.folded && p.contributed >= e.street.currentBet
  }

  /** getAvailableActions: nothing for a folded player; Check with Bet (postflop,
      no bet yet) or Raise when the player can check; Fold, Call and Raise when
      facing a bet. */
  function AvailableActions(e: Engine, pos: Position): (r: seq<ActionType>)
    ensures e.players[IndexOf(pos)].folded ==> r == []
    ensures Check in r <==> CanCheck(e, pos)
    ensures Fold in r <==> Call in r
    ensures Fold in r <==> !e.players[IndexOf(pos)].folded && !CanCheck(e, pos)
    ensures Bet in r <==> CanCheck(e, pos) && e.street.phase != Preflop && e.street.currentBet == 0.0
    ensures Raise in r <==> !e.players[IndexOf(pos)].folded && Bet !in r
    ensures forall i, j :: 0 <= i < j < |r| ==> r[i] != r[j]
  {
    if e.players[IndexOf(pos)].folded then []
    else if CanCheck(e, pos) then
      if e.street.phase != Preflop && e.street.currentBet == 0.0 then [Check, Bet]
      else [Check, Raise]
    else [Fold, Call, Raise]
  }

  datatype PotDetails = PotDetails(startingPot: real, addedThisStreet: real, totalPot: real)

  /** getPotDetails: the pot when the street began, what was added since, the total. */
  function GetPotDetails(e: Engine): (r: PotDetails)
    ensures r.startingPot + r.addedThisStreet == r.totalPot == e.street.pot
    ensures r.startingPot == e.street.streetStartingPot
  {
    PotDetails(e.street.streetStartingPot, e.street.pot - e.street.streetStartingPot, e.street.pot)
  }

  function Digit(d: nat): char
    requires d < 10
  {
    "0123456789"[d]
  }

  /** The decimal numeral of `n`, as a template literal writes an integer. */
  function Decimal(n: nat): (s: string)
    ensures |s| >= 1
    decreases n
  {
    if n < 10 then [Digit(n)] else Decimal(n / 10) + [Digit(n % 10)]
  }

  /** getRaiseLabel: preflop, the next raise is the Open, then the 3-bet, the
      4-bet and so on; postflop it is a Bet with no bet out, a Raise over a
      single bet, otherwise a Re-raise. */
  function RaiseLabel(e: Engine): (r: string)
    ensures e.street.phase == Preflop && e.street.raiseCount == 0 ==> r == "Open"
    ensures e.street.phase == Preflop && e.street.raiseCount > 0 ==> r == Decimal(e.street.raiseCount + 2) + "-bet"
    ensures e.street.phase != Preflop ==> r in {"Bet", "Raise", "Re-raise"}
    ensures e.street.phase != Preflop ==> (r == "Bet" <==> e.street.currentBet == 0.0)
    ensures e.street.phase != Preflop && e.street.currentBet != 0.0 ==> (r == "Raise" <==> e.street.raiseCount == 1)
  {
    var n := e.street.raiseCount;
    if e.street.phase == Preflop then
      if n == 0 then "Open"
      else if n == 1 then "3-bet"
      else if n == 2 then "4-bet"
      else Decimal(n + 2) + "-bet"
    else
      if e.street.currentBet == 0.0 then "Bet"
      else if n == 1 then "Raise"
      else "Re-raise"
  }

  /** setHandResult: refused until the hand is complete; otherwise stores the result. */
  function SetHandResult(e: Engine, res: HandResult): (r: Result<Engine, EngineError>)
    ensures r.Failure? <==> !IsHandComplete(e)
    ensures r.Failure? ==> r.error == HandNotComplete
    ensures r.Success? ==> r.value == e.(handResult := Some(res))
  {
    if !IsHandComplete(e) then Failure(HandNotComplete)
    else Success(e.(handResult := Some(res)))
  }

  /** isReadyForResult: the hand is over and no result is stored yet, that
      is, setHandResult would accept a result and none has been given. */
  predicate IsReadyForResult(e: Engine): (r: bool)
    ensures forall res :: r <==> SetHandResult(e, res).Success? && e.handResult.None?
  {
    IsHandComplete(e) && e.handResult.None?
  }

  /** getCompletionType: 'fold' with exactly one player left, 'allin' when
      nobody left can act, otherwise 'showdown'. */
  function GetCompletionType(e: Engine): (r: CompletionType)
    ensures r == FoldEnd <==> ActiveCount(e.players) == 1
    ensures r == AllInEnd <==> ActiveCount(e.players) != 1 && !AnyCanAct(e.players)
    ensures r == ShowdownEnd ==> ActiveCount(e.players) >= 2 && AnyCanAct(e.players)
  {
    if ActiveCount(e.players) == 1 then FoldEnd
    else if !AnyCanAct(e.players) then AllInEnd
    else ShowdownEnd
  }
}

=== FILE: engine_state.dfy ===
/** The state of one hand in the PokerHandEngine: six player records, one
    street record and the action log, plus the seat search that every turn
    decision relies on. */
module EngineState {
  import opened Wrappers
  import opened PokerTypes

  /** A seat's chips and flags. The seat's position is its index in the table. */
  datatype Player = Player(
    stack: real,
    contributed: real,        // put in during the current street
    totalContributed: real,   // put in during the whole hand
    folded: bool,
    isHero: bool,
    hasActed: bool)           // acted on the current street

  /** Exactly one player per seat, indexed by `IndexOf`. */
  type Table = ps: seq<Player> | |ps| == 6
    witness seq(6, _ => Player(0.0, 0.0, 0.0, false, false, false))

  datatype Street = Street(
    phase: Phase,
    pot: real,
    streetStartingPot: real,
    currentBet: real,
    lastAggressor: Option<Idx>,
    actionsThisStreet: seq<HandAction>,
    raiseCount: nat)

  /** `actor == None` stands for the source's current-actor index -1. */
  datatype Engine = Engine(
    players: Table,
    street: Street,
    actions: seq<HandAction>,
    heroPosition: Option<Position>,
    stackSize: real,
    actor: Option<Idx>,
    waitingForBoard: bool,
    handResult: Option<HandResult>)

  /** A player who can still act: not folded and more than 0.01 behind. */
  predicate CanAct(p: Player)
  {
    !p.folded && p.stack > 0.01
  }

  /** The all-in test used when checking whether contributions are matched. */
  predicate AllInForMatching(p: Player)
  {
    p.stack < 0.01
  }

  function Live(p: Player): nat
  {
    if p.folded then 0 else 1
  }

  /** Number of players who have not folded. */
  function ActiveCount(ps: Table): (n: nat)
    ensures n <= 6
  {
    Live(ps[0]) + Live(ps[1]) + Live(ps[2]) + Live(ps[3]) + Live(ps[4]) + Live(ps[5])
  }

  predicate AnyCanAct(ps: Table)
  {
    exists i: Idx :: CanAct(ps[i])
  }

  /** Sum of all players' whole-hand contributions. */
  function TotalSum(ps: Table): real
  {
    ps[0].totalContributed + ps[1].totalContributed + ps[2].totalContributed
    + ps[3].totalContributed + ps[4].totalContributed + ps[5].totalContributed
  }

  /** Sum of all players' current-street contributions. */
  function StreetSum(ps: Table): real
  {
    ps[0].contributed + ps[1].contributed + ps[2].contributed
    + ps[3].contributed + ps[4].contributed + ps[5].contributed
  }

  /** The blinds are street contributions that were never added as actions. */
  function Blinds(ph: Phase): real
  {
    if ph == Preflop then 1.5 else 0.0
  }

  /** Chip conservation: nothing is created or destroyed at any seat. */
  predicate Conserved(e: Engine)
  {
    forall i: Idx :: e.players[i].stack + e.players[i].totalContributed == e.stackSize
  }

  /** The pot is exactly what the players have put in. */
  predicate PotBalanced(e: Engine)
  {
    e.street.pot == TotalSum(e.players)
  }

  /** What the pot gained this street is what was put in by actions this street. */
  predicate StreetBalanced(e: Engine)
  {
    e.street.pot - e.street.streetStartingPot == StreetSum(e.players) - Blinds(e.street.phase)
  }

  predicate Inv(e: Engine)
  {
    Conserved(e) && PotBalanced(e) && StreetBalanced(e)
  }

  /** Clockwise distance from `start` to seat `j`, in 1..6; a seat is at
      distance 6 from itself, and start -1 ranks seats SB..BTN as 1..6. */
  function Dist(start: int, j: Idx): int
  {
    if j > start then j - start else j - start + 6
  }

  function StartOf(from: Option<Idx>): int
  {
    if from.Some? then from.value else -1
  }

  /** The next seat clockwise from `from` whose player can act: the first
      of `from`+1, ..., `from`+6 (mod 6), or None when nobody can act. */
  function NextActive(ps: Table, from: Option<Idx>): (r: Option<Idx>)
    ensures r.Some? ==> CanAct(ps[r.value])
    ensures r.Some? ==> forall j: Idx :: CanAct(ps[j]) ==> Dist(StartOf(from), r.value) <= Dist(StartOf(from), j)
    ensures r.None? <==> !AnyCanAct(ps)
  {
    Scan(ps, StartOf(from), 1)
  }

  /** The loop of NextActive from its `i`-th step on. */
  function Scan(ps: Table, start: int, i: int): (r: Option<Idx>)
    requires -1 <= start < 6 && 1 <= i <= 7
    ensures r.Some? ==> CanAct(ps[r.value]) && i <= Dist(start, r.value)
    ensures r.Some? ==> forall j: Idx :: CanAct(ps[j]) && i <= Dist(start, j) ==> Dist(start, r.value) <= Dist(start, j)
    ensures r.None? ==> forall j: Idx :: i <= Dist(start, j) ==> !CanAct(ps[j])
    decreases 7 - i
  {
    if i == 7 then None
    else
      var idx := (start + i) % 6;
      if CanAct(ps[idx]) then Some(idx) else Scan(ps, start, i + 1)
  }
}

=== FILE: hand_format.dfy ===
/** The two formatters of the hand history: the board as a flat card list
    and each logged action as one display line, with decoders that read the
    formatted values back. */
module HandFormat {
  import opened Wrappers
  import opened PokerTypes

  /** The board as entered: the flop's three cards, the turn and the river,
      each possibly missing. */
  datatype BoardState = BoardState(
    flop: Option<(string, string, string)>,
    turn: Option<string>,
    river: Option<string>)

  /** JavaScript truthiness of an optional card string: present and not empty. */
  predicate Truthy(s: Option<string>)
  {
    s.Some? && s.value != ""
  }

  function FlopCards(b: BoardState): (cs: seq<string>)
    ensures |cs| == if b.flop.Some? then 3 else 0
  {
    if b.flop.Some? then [b.flop.value.0, b.flop.value.1, b.flop.value.2] else []
  }

  /** formatBoard: the flop cards, then the turn, then the river, the last two
      only when present and non-empty. */
  function FormatBoard(b: BoardState): (r: seq<string>)
    ensures |FlopCards(b)| <= |r| <= 5 && r[..|FlopCards(b)|] == FlopCards(b)
    ensures |r| - |FlopCards(b)| == (if Truthy(b.turn) then 1 else 0) + (if Truthy(b.river) then 1 else 0)
    ensures Truthy(b.turn) ==> r[|FlopCards(b)|] == b.turn.value
    ensures Truthy(b.river) ==> r[|r| - 1] == b.river.value
    ensures forall c :: c in r ==> c in FlopCards(b) || (b.turn == Some(c) && c != "") || (b.river == Some(c) && c != "")
  {
    FlopCards(b) + (if Truthy(b.turn) then [b.turn.value] else [])
                 + (if Truthy(b.river) then [b.river.value] else [])
  }

  /** Reads a card list back into a board: three flop cards, then turn, then
      river. */
  function BoardOf(cards: seq<string>): BoardState
  {
    if |cards| < 3 then BoardState(None, None, None)
    else BoardState(Some((cards[0], cards[1], cards[2])),
                    if |cards| > 3 then Some(cards[3]) else None,
                    if |cards| > 4 then Some(cards[4]) else None)
  }

  /** The board with a missing or empty turn or river dropped. */
  function Dealt(b: BoardState): BoardState
  {
    BoardState(b.flop, if Truthy(b.turn) then b.turn else None, if Truthy(b.river) then b.river else None)
  }

  /** A board dealt in order (a flop; a river only after a turn) survives
      formatting: reading the card list back gives the board, with empty
      turn or river strings read as missing. A river entered without a turn,
      or a turn without a flop, does not: its card lands in an earlier slot. */
  lemma FormatBoardRoundTrip(b: BoardState)
    requires b.flop.Some? && (Truthy(b.river) ==> Truthy(b.turn))
    ensures BoardOf(FormatBoard(b)) == Dealt(b)
  {
  }

  lemma RiverWithoutTurnShifts(f: (string, string, string), rv: string)
    requires rv != ""
    ensures BoardOf(FormatBoard(BoardState(Some(f), None, Some(rv)))).turn == Some(rv)
    ensures BoardOf(FormatBoard(BoardState(Some(f), None, Some(rv)))).river.None?
  {
  }

  /** One display line: "[phase] position action", then " <size>bb" when the
      action carries a size. `fmt` stands for the one-decimal number format. */
  function ActionLine(a: HandAction, fmt: real -> string): string
  {
    "[" + PhaseName(a.phase) + "] " + PositionName(a.position) + " " + ActionName(a.action)
    + (if a.betSize.Some? then " " + fmt(a.betSize.value) + "bb" else "")
  }

  /** What a display line tells about its action: the phase, the position,
      the action and the size text after it, if any. */
  datatype LineSummary = LineSummary(phase: Phase, position: Position, action: ActionType, size: Option<string>)

  /** What the line of `a` should tell: its own size, printed by `fmt`, in bb. */
  function Summary(a: HandAction, fmt: real -> string): (s: LineSummary)
    ensures s.phase == a.phase && s.position == a.position && s.action == a.action
    ensures s.size.Some? <==> a.betSize.Some?
    ensures a.betSize.Some? ==> s.size == Some(fmt(a.betSize.value) + "bb")
  {
    LineSummary(a.phase, a.position, a.action,
                if a.betSize.Some? then Some(fmt(a.betSize.value) + "bb") else None)
  }

  /** The first index of `c` in `s`, or |s| when it does not occur. */
  function Find(c: char, s: string): (k: nat)
    ensures k <= |s|
    ensures k < |s| ==> s[k] == c
    ensures forall i :: 0 <= i < k ==> s[i] != c
  {
    if s == [] then 0
    else if s[0] == c then 0
    else 1 + Find(c, s[1..])
  }

  /** `s` cut at the first `c`: the part before it and, when `c` occurs, the
      part after it. */
  function SplitAt(c: char, s: string): (string, Option<string>)
  {
    var k := Find(c, s);
    if k < |s| then (s[..k], Some(s[k + 1..])) else (s, None)
  }

  lemma SplitAtFirst(c: char, x: string, y: string)
    requires c !in x
    ensures SplitAt(c, x + [c] + y) == (x, Some(y))
  {
    var s := x + [c] + y;
    var k := Find(c, s);
    assert s[|x|] == c;
    assert s[..|x|] == x;
    assert s[|x| + 1..] == y;
  }

  lemma SplitAtAbsent(c: char, x: string)
    requires c !in x
    ensures SplitAt(c, x) == (x, None)
  {
  }

  function PhaseNamed(s: string): Option<Phase>
  {
    if s == "Preflop" then Some(Preflop)
    else if s == "Flop" then Some(Flop)
    else if s == "Turn" then Some(Turn)
    else if s == "River" then Some(River)
    else None
  }

  function PositionNamed(s: string): Option<Position>
  {
    if s == "SB" then Some(SB)
    else if s == "BB" then Some(BB)
    else if s == "UTG" then Some(UTG)
    else if s == "HJ" then Some(HJ)
    else if s == "CO" then Some(CO)
    else if s == "BTN" then Some(BTN)
    else None
  }

  function ActionNamed(s: string): Option<ActionType>
  {
    if s == "Fold" then Some(Fold)
    else if s == "Check" then Some(Check)
    else if s == "Call" then Some(Call)
    else if s == "Bet" then Some(Bet)
    else if s == "Raise" then Some(Raise)
    else None
  }

  lemma NamesRead(ph: Phase, p: Position, a: ActionType)
    ensures PhaseNamed(PhaseName(ph)) == Some(ph) && ']' !in PhaseName(ph)
    ensures PositionNamed(PositionName(p)) == Some(p) && ' ' !in PositionName(p)
    ensures ActionNamed(ActionName(a)) == Some(a) && ' ' !in ActionName(a)
  {
  }

  /** Cuts a display line into its phase, position and action names and
      what follows the action: the phase between the brackets, the position up
      to the next space, the action up to the following space, and the rest. */
  function Fields(line: string): Option<(string, string, string, Option<string>)>
  {
    if |line| == 0 || line[0] != '[' then None
    else
      match SplitAt(']', line[1..])
      case (_, None) => None
      case (pn, Some(r1)) =>
        if |r1| == 0 || r1[0] != ' ' then None
        else
          match SplitAt(' ', r1[1..])
          case (_, None) => None
          case (qn, Some(r2)) =>
            var (an, size) := SplitAt(' ', r2);
            Some((pn, qn, an, size))
  }

  /** A line built from names free of the separators cuts back into them. */
  lemma FieldsOf(pn: string, qn: string, an: string, more: Option<string>)
    requires ']' !in pn && ' ' !in qn && ' ' !in an
    ensures Fields("[" + pn + "] " + qn + " " + an + (if more.Some? then " " + more.value else ""))
         == Some((pn, qn, an, more))
  {
    var sfx := if more.Some? then " " + more.value else "";
    var r2 := an + sfx;
    var r1 := " " + (qn + [' '] + r2);
    var line := "[" + (pn + [']'] + r1);
    assert "[" + pn + "] " + qn + " " + an + sfx == line;
    assert line[1..] == pn + [']'] + r1;
    SplitAtFirst(']', pn, r1);
    assert r1[1..] == qn + [' '] + r2;
    SplitAtFirst(' ', qn, r2);
    if more.Some? {
      assert r2 == an + [' '] + more.value;
      SplitAtFirst(' ', an, more.value);
    } else {
      assert r2 == an;
      SplitAtAbsent(' ', an);
    }
  }

  /** Reads a display line back into what it tells. */
  function DecodeLine(line: string): Option<LineSummary>
  {
    match Fields(line)
    case None => None
    case Some((pn, qn, an, size)) =>
      match (PhaseNamed(pn), PositionNamed(qn), ActionNamed(an))
      case (Some(ph), Some(p), Some(a)) => Some(LineSummary(ph, p, a, size))
      case _ => None
  }

  /** Every display line reads back as its action's phase, position and
      action, and shows the action's own size, printed by `fmt` and followed
      by "bb", exactly when the action has one; this holds whatever the number
      format prints. */
  lemma DecodeActionLine(a: HandAction, fmt: real -> string)
    ensures DecodeLine(ActionLine(a, fmt)) == Some(Summary(a, fmt))
  {
    NamesRead(a.phase, a.position, a.action);
    var more := if a.betSize.Some? then Some(fmt(a.betSize.value) + "bb") else None;
    FieldsOf(PhaseName(a.phase), PositionName(a.position), ActionName(a.action), more);
    assert ActionLine(a, fmt) == "[" + PhaseName(a.phase) + "] " + PositionName(a.position) + " "
      + ActionName(a.action) + (if more.Some? then " " + more.value else "");
  }

  /** formatActions: one display line per action, in order. */
  function FormatActions(actions: seq<HandAction>, fmt: real -> string): (r: seq<string>)
    ensures |r| == |actions|
    ensures forall i :: 0 <= i < |r| ==> DecodeLine(r[i]) == Some(Summary(actions[i], fmt))
    decreases |actions|
  {
    if actions == [] then []
    else
      DecodeActionLine(actions[0], fmt);
      [ActionLine(actions[0], fmt)] + FormatActions(actions[1..], fmt)
  }
}

=== FILE: hand_storage.dfy ===
/** The saved hand history: the list kept under one storage key, read back
    newest first, extended by saveHand, filtered by deleteHand and patched by
    updateHand. The storage itself is a value: what the key holds before an
    operation goes in, what it holds afterwards comes out. */
module HandStorage {
  import opened Wrappers
  import opened PokerTypes
  import opened HandFormat

  /** One saved hand, with the board and the actions already formatted. */
  datatype SavedHand = SavedHand(
    id: string,
    timestamp: int,
    heroPosition: Option<Position>,
    heroHand: Option<(string, string)>,
    villainType: OpponentType,
    board: seq<string>,
    actions: seq<string>,
    finalPot: real,
    locationMemo: Option<string>,
    otherMemo: Option<string>,
    isFavorite: Option<bool>)

  /** What the storage key holds: a parsed list of hands, or nothing usable
      (no entry, an empty entry, or text that does not parse). */
  type Stored = Option<seq<SavedHand>>

  function Contents(stored: Stored): seq<SavedHand>
  {
    if stored.Some? then stored.value else []
  }

  predicate NewestFirst(hs: seq<SavedHand>)
  {
    forall i, j :: 0 <= i < j < |hs| ==> hs[i].timestamp >= hs[j].timestamp
  }

  /** The hands saved at time `t`, in list order. */
  function OfTime(hs: seq<SavedHand>, t: int): seq<SavedHand>
  {
    if hs == [] then []
    else (if hs[0].timestamp == t then [hs[0]] else []) + OfTime(hs[1..], t)
  }

  lemma OfTimeCons(h: SavedHand, hs: seq<SavedHand>, t: int)
    ensures OfTime([h] + hs, t) == (if h.timestamp == t then [h] else []) + OfTime(hs, t)
  {
    assert ([h] + hs)[1..] == hs;
  }

  /** Places `h` in front of the first hand that is not newer than it. */
  function Insert(h: SavedHand, hs: seq<SavedHand>): (r: seq<SavedHand>)
    ensures multiset(r) == multiset(hs) + multiset{h}
    ensures NewestFirst(hs) ==> NewestFirst(r)
  {
    if hs == [] || h.timestamp >= hs[0].timestamp then
      assert NewestFirst(hs) ==> NewestFirst([h] + hs) by {
        if NewestFirst(hs) && hs != [] {
          HeadNewest(hs);
          assert forall y :: y in hs ==> y == hs[0] || y in hs[1..];
          PrependNewest(h, hs);
        }
      }
      [h] + hs
    else
      assert hs == [hs[0]] + hs[1..];
      var rest := Insert(h, hs[1..]);
      assert NewestFirst(hs) ==> NewestFirst([hs[0]] + rest) by {
        if NewestFirst(hs) {
          HeadNewest(hs);
          forall y | y in rest
            ensures y.timestamp <= hs[0].timestamp
          {
            assert y in multiset(rest);
            assert y == h || y in multiset(hs[1..]);
          }
          PrependNewest(hs[0], rest);
        }
      }
      [hs[0]] + rest
  }

  /** The head of a newest-first list is no older than anything after it. */
  lemma HeadNewest(hs: seq<SavedHand>)
    requires hs != [] && NewestFirst(hs)
    ensures forall y :: y in hs[1..] ==> y.timestamp <= hs[0].timestamp
  {
    forall y | y in hs[1..]
      ensures y.timestamp <= hs[0].timestamp
    {
      var k :| 0 <= k < |hs[1..]| && hs[1..][k] == y;
      assert hs[k + 1] == y;
    }
  }

  /** A hand no older than anything in a newest-first list can go in front. */
  lemma PrependNewest(x: SavedHand, rest: seq<SavedHand>)
    requires NewestFirst(rest)
    requires forall y :: y in rest ==> y.timestamp <= x.timestamp
    ensures NewestFirst([x] + rest)
  {
    var r := [x] + rest;
    forall i, j | 0 <= i < j < |r|
      ensures r[i].timestamp >= r[j].timestamp
    {
      assert r[j] == rest[j - 1] && rest[j - 1] in rest;
      if i > 0 {
        assert r[i] == rest[i - 1];
      }
    }
  }

  /** The sort of getAllHands: a stable sort by timestamp, newest first. */
  function SortNewest(hs: seq<SavedHand>): (r: seq<SavedHand>)
    ensures NewestFirst(r)
    ensures multiset(r) == multiset(hs)
  {
    if hs == [] then []
    else
      assert hs == [hs[0]] + hs[1..];
      Insert(hs[0], SortNewest(hs[1..]))
  }

  lemma InsertFront(h: SavedHand, hs: seq<SavedHand>)
    requires hs == [] || h.timestamp >= hs[0].timestamp
    ensures Insert(h, hs) == [h] + hs
  {
  }

  lemma InsertBehind(h: SavedHand, hs: seq<SavedHand>)
    requires hs != [] && h.timestamp < hs[0].timestamp
    ensures Insert(h, hs) == [hs[0]] + Insert(h, hs[1..])
  {
  }

  lemma {:induction false} InsertOfTime(h: SavedHand, hs: seq<SavedHand>, t: int)
    ensures OfTime(Insert(h, hs), t) == (if h.timestamp == t then [h] else []) + OfTime(hs, t)
    decreases |hs|
  {
    if hs == [] || h.timestamp >= hs[0].timestamp {
      InsertFront(h, hs);
      OfTimeCons(h, hs, t);
    } else {
      var x, tail := hs[0], hs[1..];
      assert hs == [x] + tail;
      InsertBehind(h, hs);
      InsertOfTime(h, tail, t);
      OfTimeCons(x, Insert(h, tail), t);
      OfTimeCons(x, tail, t);
    }
  }

  /** The sort is stable: hands saved at the same time keep their order. */
  lemma {:induction false} SortStable(hs: seq<SavedHand>, t: int)
    ensures OfTime(SortNewest(hs), t) == OfTime(hs, t)
    decreases |hs|
  {
    if hs != [] {
      SortStable(hs[1..], t);
      InsertOfTime(hs[0], SortNewest(hs[1..]), t);
      OfTimeCons(hs[0], hs[1..], t);
      assert hs == [hs[0]] + hs[1..];
    }
  }

  /** A list already newest first is left as it is. */
  lemma {:induction false} SortKeepsSorted(hs: seq<SavedHand>)
    requires NewestFirst(hs)
    ensures SortNewest(hs) == hs
    decreases |hs|
  {
    if hs != [] {
      assert NewestFirst(hs[1..]);
      SortKeepsSorted(hs[1..]);
      if |hs| > 1 {
        assert hs[0].timestamp >= hs[1..][0].timestamp;
      }
      assert hs == [hs[0]] + hs[1..];
    }
  }

  /** getAllHands: the stored hands, newest first; none when nothing usable is
      stored. */
  function GetAllHands(stored: Stored): (r: seq<SavedHand>)
    ensures NewestFirst(r)
    ensures multiset(r) == multiset(Contents(stored))
    ensures stored.None? ==> r == []
  {
    if stored.None? then [] else SortNewest(stored.value)
  }

  /** Hands saved at the same moment are listed in stored order. */
  lemma GetAllHandsStable(stored: Stored, t: int)
    ensures OfTime(GetAllHands(stored), t) == OfTime(Contents(stored), t)
  {
    if stored.Some? {
      SortStable(stored.value, t);
    }
  }

  /** Reading a list that was written newest first gives it back unchanged. */
  lemma GetAllHandsOfSorted(hs: seq<SavedHand>)
    requires NewestFirst(hs)
    ensures GetAllHands(Some(hs)) == hs
  {
    SortKeepsSorted(hs);
  }

  /** The record saveHand builds: a fresh id and the save time, the board and
      actions formatted, and no memos or favourite flag yet. */
  function NewHand(id: string, timestamp: int, heroPosition: Option<Position>, villainType: OpponentType,
                   board: BoardState, actions: seq<HandAction>, finalPot: real,
                   heroHand: Option<(string, string)>, fmt: real -> string): (h: SavedHand)
    ensures h.id == id && h.timestamp == timestamp && h.finalPot == finalPot
    ensures h.heroPosition == heroPosition && h.heroHand == heroHand && h.villainType == villainType
    ensures h.board == FormatBoard(board)
    ensures |h.actions| == |actions|
    ensures forall i :: 0 <= i < |actions| ==> DecodeLine(h.actions[i]) == Some(Summary(actions[i], fmt))
    ensures h.locationMemo.None? && h.otherMemo.None? && h.isFavorite.None?
  {
    SavedHand(id, timestamp, heroPosition, heroHand, villainType, FormatBoard(board),
              FormatActions(actions, fmt), finalPot, None, None, None)
  }

  /** saveHand: what the key holds afterwards. The new hand goes in front of
      the existing hands as getAllHands lists them. */
  function SaveHand(stored: Stored, h: SavedHand): (r: Stored)
    ensures r.Some? && |r.value| == |GetAllHands(stored)| + 1
    ensures multiset(r.value) == multiset(Contents(stored)) + multiset{h}
    ensures r.value[0] == h && r.value[1..] == GetAllHands(stored)
  {
    Some([h] + GetAllHands(stored))
  }

  /** A hand saved no earlier than every stored hand is listed first, and the
      hands listed before follow it in the same order. */
  lemma SaveThenList(stored: Stored, h: SavedHand)
    requires forall x :: x in Contents(stored) ==> x.timestamp <= h.timestamp
    ensures GetAllHands(SaveHand(stored, h)) == [h] + GetAllHands(stored)
  {
    var listed := GetAllHands(stored);
    var hs := [h] + listed;
    forall y | y in listed
      ensures y.timestamp <= h.timestamp
    {
      assert y in multiset(listed);
      assert y in Contents(stored);
    }
    PrependNewest(h, listed);
    GetAllHandsOfSorted(hs);
  }

  /** The stored hands without those carrying `id`, in order. */
  function WithoutId(hs: seq<SavedHand>, id: string): (r: seq<SavedHand>)
    ensures forall x :: x in r ==> x in hs && x.id != id
    ensures forall x :: multiset(r)[x] == if x.id == id then 0 else multiset(hs)[x]
    ensures NewestFirst(hs) ==> NewestFirst(r)
  {
    if hs == [] then []
    else
      assert hs == [hs[0]] + hs[1..];
      var rest := WithoutId(hs[1..], id);
      assert forall x :: x in hs[1..] ==> x in hs;
      if hs[0].id == id then rest
      else
        assert NewestFirst(hs) ==> NewestFirst([hs[0]] + rest) by {
          if NewestFirst(hs) {
            assert NewestFirst(hs[1..]);
            HeadNewest(hs);
            PrependNewest(hs[0], rest);
          }
        }
        [hs[0]] + rest
  }

  /** deleteHand: what the key holds afterwards, the listed hands without
      those carrying `id`. */
  function DeleteHand(stored: Stored, id: string): (r: Stored)
    ensures r.Some? && NewestFirst(r.value)
    ensures forall x :: x in r.value <==> x in Contents(stored) && x.id != id
    ensures forall x :: multiset(r.value)[x] == if x.id == id then 0 else multiset(Contents(stored))[x]
  {
    var hs := GetAllHands(stored);
    assert forall x :: x in hs <==> x in Contents(stored) by {
      forall x ensures x in hs <==> x in Contents(stored) {
        assert x in hs <==> x in multiset(hs);
        assert x in Contents(stored) <==> x in multiset(Contents(stored));
      }
    }
    Some(WithoutId(hs, id))
  }

  lemma WithoutIdCons(h: SavedHand, hs: seq<SavedHand>, id: string)
    ensures WithoutId([h] + hs, id) == (if h.id != id then [h] else []) + WithoutId(hs, id)
  {
    assert ([h] + hs)[1..] == hs;
  }

  lemma {:induction false} WithoutIdOfTime(hs: seq<SavedHand>, id: string, t: int)
    ensures OfTime(WithoutId(hs, id), t) == WithoutId(OfTime(hs, t), id)
    decreases |hs|
  {
    if hs != [] {
      var h, tail := hs[0], hs[1..];
      assert hs == [h] + tail;
      WithoutIdOfTime(tail, id, t);
      WithoutIdCons(h, tail, id);
      OfTimeCons(h, tail, t);
      var lhs, rhs := OfTime(WithoutId(hs, id), t), WithoutId(OfTime(hs, t), id);
      var l, r := OfTime(WithoutId(tail, id), t), WithoutId(OfTime(tail, t), id);
      if h.id != id && h.timestamp == t {
        OfTimeCons(h, WithoutId(tail, id), t);
        WithoutIdCons(h, OfTime(tail, t), id);
        assert lhs == [h] + l && rhs == [h] + r;
      } else if h.id != id {
        OfTimeCons(h, WithoutId(tail, id), t);
        assert OfTime(hs, t) == OfTime(tail, t);
        assert lhs == l && rhs == r;
      } else if h.timestamp == t {
        WithoutIdCons(h, OfTime(tail, t), id);
        assert WithoutId(hs, id) == WithoutId(tail, id);
        assert lhs == l && rhs == r;
      } else {
        assert WithoutId(hs, id) == WithoutId(tail, id);
        assert OfTime(hs, t) == OfTime(tail, t);
        assert lhs == l && rhs == r;
      }
    }
  }

  /** deleteHand keeps the remaining hands in the order getAllHands lists
      them: together with the newest-first order, the hands saved at the same
      moment come out in the same relative order as before. */
  lemma DeleteKeepsOrder(stored: Stored, id: string, t: int)
    ensures OfTime(DeleteHand(stored, id).value, t) == WithoutId(OfTime(GetAllHands(stored), t), id)
  {
    WithoutIdOfTime(GetAllHands(stored), id, t);
  }

  /** After deleting `id`, no hand carries it and every other id is held
      exactly when it was before. */
  lemma DeleteRemovesOnlyThatId(stored: Stored, id: string, other: string)
    ensures !Holds(DeleteHand(stored, id), id)
    ensures other != id ==> (Holds(DeleteHand(stored, id), other) <==> Holds(stored, other))
  {
    if other != id && Holds(stored, other) {
      var x :| x in Contents(stored) && x.id == other;
      assert x in DeleteHand(stored, id).value;
    }
  }

  /** Deleting the same id twice is deleting it once. */
  lemma DeleteIdempotent(stored: Stored, id: string)
    ensures DeleteHand(DeleteHand(stored, id), id) == DeleteHand(stored, id)
  {
    var once := DeleteHand(stored, id).value;
    GetAllHandsOfSorted(once);
    WithoutIdNone(once, id);
  }

  lemma {:induction false} WithoutIdNone(hs: seq<SavedHand>, id: string)
    requires forall x :: x in hs ==> x.id != id
    ensures WithoutId(hs, id) == hs
    decreases |hs|
  {
    if hs != [] {
      var h, tail := hs[0], hs[1..];
      assert hs == [h] + tail;
      assert h in hs;
      assert forall x :: x in tail ==> x in hs;
      WithoutIdNone(tail, id);
      WithoutIdCons(h, tail, id);
    }
  }

  /** The fields an update may carry. An outer None is a key the update leaves
      out; Some(None) is a key present with an undefined value, which clears
      the field. */
  datatype Patch = Patch(
    locationMemo: Option<Option<string>>,
    otherMemo: Option<Option<string>>,
    isFavorite: Option<Option<bool>>)

  function Pick<T>(update: Option<Option<T>>, current: Option<T>): Option<T>
  {
    if update.Some? then update.value else current
  }

  /** The spread `{ ...hand, ...updates }`. */
  function ApplyPatch(h: SavedHand, p: Patch): (r: SavedHand)
    ensures r.(locationMemo := h.locationMemo, otherMemo := h.otherMemo, isFavorite := h.isFavorite) == h
    ensures p.locationMemo.Some? ==> r.locationMemo == p.locationMemo.value
    ensures p.locationMemo.None? ==> r.locationMemo == h.locationMemo
    ensures p.otherMemo.Some? ==> r.otherMemo == p.otherMemo.value
    ensures p.otherMemo.None? ==> r.otherMemo == h.otherMemo
    ensures p.isFavorite.Some? ==> r.isFavorite == p.isFavorite.value
    ensures p.isFavorite.None? ==> r.isFavorite == h.isFavorite
  {
    h.(locationMemo := Pick(p.locationMemo, h.locationMemo),
       otherMemo := Pick(p.otherMemo, h.otherMemo),
       isFavorite := Pick(p.isFavorite, h.isFavorite))
  }

  /** findIndex by id: the first position holding `id`, or |hs| when none does. */
  function FindId(hs: seq<SavedHand>, id: string): (k: nat)
    ensures k <= |hs|
    ensures k < |hs| ==> hs[k].id == id
    ensures forall i :: 0 <= i < k ==> hs[i].id != id
  {
    if hs == [] then 0
    else if hs[0].id == id then 0
    else 1 + FindId(hs[1..], id)
  }

  predicate Holds(stored: Stored, id: string)
  {
    exists x :: x in Contents(stored) && x.id == id
  }

  /** A hand carrying `id` is stored exactly when the listed hands have one. */
  lemma HoldsListed(stored: Stored, id: string)
    ensures Holds(stored, id) <==> FindId(GetAllHands(stored), id) < |GetAllHands(stored)|
  {
    var hs := GetAllHands(stored);
    var k := FindId(hs, id);
    if Holds(stored, id) {
      var x :| x in Contents(stored) && x.id == id;
      assert x in multiset(Contents(stored));
      assert x in hs;
    }
    if k < |hs| {
      assert hs[k] in multiset(hs);
      assert hs[k] in Contents(stored);
    }
  }

  /** Patching one hand of a newest-first list keeps it newest first. */
  lemma PatchKeepsOrder(hs: seq<SavedHand>, k: nat, p: Patch)
    requires k < |hs| && NewestFirst(hs)
    ensures NewestFirst(hs[k := ApplyPatch(hs[k], p)])
  {
    var r := hs[k := ApplyPatch(hs[k], p)];
    assert forall i :: 0 <= i < |r| ==> r[i].timestamp == hs[i].timestamp;
  }

  /** updateHand: what the key holds afterwards. With no hand carrying `id`
      nothing is written; otherwise the listed hands are written with the
      first one carrying `id` patched and every other hand as it was. */
  function UpdateHand(stored: Stored, id: string, p: Patch): (r: Stored)
    ensures !Holds(stored, id) ==> r == stored
    ensures Holds(stored, id) ==>
      var hs := GetAllHands(stored);
      var k := FindId(hs, id);
      && r.Some? && NewestFirst(r.value) && |r.value| == |hs| && k < |hs|
      && r.value[k] == ApplyPatch(hs[k], p)
      && (forall i :: 0 <= i < |hs| && i != k ==> r.value[i] == hs[i])
  {
    var hs := GetAllHands(stored);
    var k := FindId(hs, id);
    HoldsListed(stored, id);
    if k == |hs| then stored
    else
      PatchKeepsOrder(hs, k, p);
      Some(hs[k := ApplyPatch(hs[k], p)])
  }

  /** Applying the same update twice is applying it once. */
  lemma UpdateIdempotent(stored: Stored, id: string, p: Patch)
    ensures UpdateHand(UpdateHand(stored, id, p), id, p) == UpdateHand(stored, id, p)
  {
    if Holds(stored, id) {
      var hs := GetAllHands(stored);
      var k := FindId(hs, id);
      var once := UpdateHand(stored, id, p).value;
      GetAllHandsOfSorted(once);
      assert once[k].id == id;
      assert FindId(once, id) == k;
      assert ApplyPatch(once[k], p) == once[k];
      assert once[k := ApplyPatch(once[k], p)] == once;
    }
  }

  /** clearAllHands: the key is removed, and nothing is listed afterwards. */
  function ClearAllHands(): (r: Stored)
    ensures GetAllHands(r) == []
  {
    None
  }
}

=== FILE: invariants.dfy ===
/** The invariants every engine operation keeps: chip conservation, the pot
    as the sum of contributions, non-negative stacks, folds that never come
    back, and a phase that only moves forward. */
module Invariants {
  import opened Wrappers
  import opened PokerTypes
  import opened EngineState
  import opened Recording
  import opened StreetFlow

  /** Every stack is non-negative. */
  predicate Solvent(e: Engine)
  {
    forall i: Idx :: e.players[i].stack >= 0.0
  }

  /** What no operation undoes: folds stay, the phase does not go back, the
      starting stack is fixed and the log only grows at its end. */
  predicate Forward(e: Engine, r: Engine)
  {
    && (forall i: Idx :: e.players[i].folded ==> r.players[i].folded)
    && PhaseIndex(e.street.phase) <= PhaseIndex(r.street.phase)
    && r.stackSize == e.stackSize
    && |e.actions| <= |r.actions| && r.actions[..|e.actions|] == e.actions
  }

  /** The phase moves at most one street. */
  predicate AtMostOneStreet(e: Engine, r: Engine)
  {
    PhaseIndex(r.street.phase) <= PhaseIndex(e.street.phase) + 1
  }

  /** All three invariants carry over from `e` to `r`. */
  predicate Keeps(e: Engine, r: Engine)
  {
    (Inv(e) ==> Inv(r)) && (Solvent(e) ==> Solvent(r))
  }

  lemma SumsOfOneSeatChange(ps: Table, qs: Table, i: Idx)
    requires forall j: Idx :: j != i ==> qs[j] == ps[j]
    ensures TotalSum(qs) - TotalSum(ps) == qs[i].totalContributed - ps[i].totalContributed
    ensures StreetSum(qs) - StreetSum(ps) == qs[i].contributed - ps[i].contributed
  {
    assert forall j: Idx :: j != i ==> qs[j] == ps[j];
    if i == 0 {
      assert qs[1] == ps[1] && qs[2] == ps[2] && qs[3] == ps[3] && qs[4] == ps[4] && qs[5] == ps[5];
    } else if i == 1 {
      assert qs[0] == ps[0] && qs[2] == ps[2] && qs[3] == ps[3] && qs[4] == ps[4] && qs[5] == ps[5];
    } else if i == 2 {
      assert qs[0] == ps[0] && qs[1] == ps[1] && qs[3] == ps[3] && qs[4] == ps[4] && qs[5] == ps[5];
    } else if i == 3 {
      assert qs[0] == ps[0] && qs[1] == ps[1] && qs[2] == ps[2] && qs[4] == ps[4] && qs[5] == ps[5];
    } else if i == 4 {
      assert qs[0] == ps[0] && qs[1] == ps[1] && qs[2] == ps[2] && qs[3] == ps[3] && qs[5] == ps[5];
    } else {
      assert qs[0] == ps[0] && qs[1] == ps[1] && qs[2] == ps[2] && qs[3] == ps[3] && qs[4] == ps[4];
    }
  }

  lemma ForwardTransitive(e1: Engine, e2: Engine, e3: Engine)
    requires Forward(e1, e2) && Forward(e2, e3)
    ensures Forward(e1, e3)
  {
    assert e3.actions[..|e1.actions|] == e2.actions[..|e2.actions|][..|e1.actions|];
  }

  lemma OnlyFoldsKeeps(e: Engine, r: Engine)
    requires OnlyFolds(e, r)
    ensures Forward(e, r) && Keeps(e, r)
  {
    assert forall i: Idx :: r.players[i].stack == e.players[i].stack;
    assert forall i: Idx :: r.players[i].totalContributed == e.players[i].totalContributed;
    assert forall i: Idx :: r.players[i].contributed == e.players[i].contributed;
  }

  /** A recorded action keeps every invariant; the stack stays non-negative
      because calls and bets are capped at it and a raise is capped at stack
      plus contribution. */
  lemma RecordKeeps(e: Engine, i: Idx, a: ActionType, size: Option<real>)
    requires RecordAction(e, i, a, size).Success?
    ensures Forward(e, RecordAction(e, i, a, size).value)
    ensures Keeps(e, RecordAction(e, i, a, size).value)
  {
    var r := RecordAction(e, i, a, size).value;
    SumsOfOneSeatChange(e.players, r.players, i);
    assert r.actions[..|e.actions|] == e.actions;
  }

  lemma AdvanceKeeps(e: Engine)
    ensures Forward(e, Advance(e)) && Keeps(e, Advance(e)) && AtMostOneStreet(e, Advance(e))
  {
    var r := Advance(e);
    if ActiveCount(e.players) > 1 && IsStreetComplete(e, None) && e.street.phase != River {
      assert forall i: Idx :: r.players[i].stack == e.players[i].stack;
    }
  }

  lemma ConfirmBoardKeeps(e: Engine)
    ensures Forward(e, ConfirmBoard(e)) && Keeps(e, ConfirmBoard(e)) && AtMostOneStreet(e, ConfirmBoard(e))
  {
    var r := ConfirmBoard(e);
    if e.street.phase in {Flop, Turn} && e.waitingForBoard && !AnyCanAct(e.players) {
      assert forall i: Idx :: r.players[i].stack == e.players[i].stack;
    }
  }
}

=== FILE: poker_types.dfy ===
/** The vocabulary of a 6-max hand: seats, action kinds, streets, the action
    log record and the externally supplied hand result. */
module PokerTypes {
  import opened Wrappers

  /** The six seats, listed clockwise from the small blind. */
  datatype Position = SB | BB | UTG | HJ | CO | BTN

  datatype ActionType = Fold | Check | Call | Bet | Raise

  datatype Phase = Preflop | Flop | Turn | River

  /** How a finished hand ended: 'showdown', 'fold' or 'allin'. */
  datatype CompletionType = ShowdownEnd | FoldEnd | AllInEnd

  datatype OpponentType = Regular | Fish

  /** A seat index: the ordinal of a position in the fixed seat order. */
  type Idx = i: int | 0 <= i < 6

  /** The fixed clockwise seat order. */
  const PositionOrder: seq<Position> := [SB, BB, UTG, HJ, CO, BTN]

  /** Seat index where preflop action starts (UTG). */
  const PreflopStart: Idx := 2

  function PositionAt(i: Idx): Position
  {
    PositionOrder[i]
  }

  function IndexOf(p: Position): (i: Idx)
    ensures PositionAt(i) == p
  {
    match p
    case SB => 0
    case BB => 1
    case UTG => 2
    case HJ => 3
    case CO => 4
    case BTN => 5
  }

  /** Seat indices and positions are in one-to-one correspondence. */
  lemma IndexOfPositionAt(i: Idx)
    ensures IndexOf(PositionAt(i)) == i
  {
  }

  function PhaseIndex(ph: Phase): (n: nat)
    ensures n <= 3
  {
    match ph
    case Preflop => 0
    case Flop => 1
    case Turn => 2
    case River => 3
  }

  /** The street after `ph`; there is none after the river. */
  function NextPhase(ph: Phase): (r: Phase)
    requires ph != River
    ensures PhaseIndex(r) == PhaseIndex(ph) + 1
  {
    match ph
    case Preflop => Flop
    case Flop => Turn
    case Turn => River
  }

  /** One entry of the hand-long action log. `betSize` is the amount the
      player put in with this action (Call, Bet, Raise) or whatever size the
      caller passed along (Fold, Check); `potSize` is the pot after it. */
  datatype HandAction = HandAction(
    position: Position,
    action: ActionType,
    betSize: Option<real>,
    potSize: real,
    phase: Phase)

  datatype PlayerHandInfo = PlayerHandInfo(
    position: Position,
    hand: Option<(string, string)>,
    mucked: bool,
    isWinner: bool)

  /** The result entered by the user once the hand is complete; the engine
      stores it without reading it. */
  datatype HandResult = HandResult(
    completionType: CompletionType,
    winner: Position,
    heroWon: bool,
    potAwarded: real,
    showdownHands: seq<PlayerHandInfo>,
    timestamp: int)

  function PositionName(p: Position): string
  {
    match p
    case SB => "SB"
    case BB => "BB"
    case UTG => "UTG"
    case HJ => "HJ"
    case CO => "CO"
    case BTN => "BTN"
  }

  function ActionName(a: ActionType): string
  {
    match a
    case Fold => "Fold"
    case Check => "Check"
    case Call => "Call"
    case Bet => "Bet"
    case Raise => "Raise"
  }

  function PhaseName(ph: Phase): string
  {
    match ph
    case Preflop => "Preflop"
    case Flop => "Flop"
    case Turn => "Turn"
    case River => "River"
  }
}

=== FILE: recording.dfy ===
/** Validating and recording a single action (the engine's recordAction),
    and the preflop skip that folds every seat passed over (autoFoldBetween). */
module Recording {
  import opened Wrappers
  import opened PokerTypes
  import opened EngineState

  /** The failures the engine raises; each leaves the state it was raised in. */
  datatype EngineError =
    | NotPreflop            // addPreflopAction outside the preflop street
    | UsePreflopEntry       // addPostflopAction during the preflop street
    | NotYourTurn           // a postflop action by a seat other than the current actor
    | NoCurrentActor        // a preflop skip from current index -1 (the source fails reading seat -1)
    | AlreadyFolded
    | CannotCheck           // check while facing a bet
    | NothingToCall
    | BetAlreadyMade        // bet when a bet exists (use Raise)
    | BetSizeNotPositive
    | RaiseSizeNotPositive
    | HandNotComplete       // setHandResult before the hand is over

  /** The source's `!betSize || betSize <= 0`: a missing or non-positive size. */
  predicate NonPositive(size: Option<real>)
  {
    size.None? || size.value <= 0.0
  }

  /** Moves `amt` chips from the player's stack into their contributions. */
  function Pay(p: Player, amt: real): (q: Player)
    ensures q.stack + q.totalContributed == p.stack + p.totalContributed
    ensures q.contributed - p.contributed == q.totalContributed - p.totalContributed == amt
    ensures q.folded == p.folded && q.isHero == p.isHero && q.hasActed == p.hasActed
  {
    p.(stack := p.stack - amt, contributed := p.contributed + amt, totalContributed := p.totalContributed + amt)
  }

  /** Marks seat `i` as having acted, stores its new record, adds `amt` to the
      pot and appends the action to both logs. */
  function Commit(e: Engine, i: Idx, p: Player, st: Street, a: ActionType, size: Option<real>, amt: real): (r: Engine)
    ensures r.players == e.players[i := p.(hasActed := true)]
    ensures r.street == st.(pot := st.pot + amt,
                            actionsThisStreet := st.actionsThisStreet + [HandAction(PositionAt(i), a, size, st.pot + amt, st.phase)])
    ensures r.actions == e.actions + [HandAction(PositionAt(i), a, size, st.pot + amt, st.phase)]
    ensures r.(players := e.players, street := e.street, actions := e.actions) == e
  {
    var act := HandAction(PositionAt(i), a, size, st.pot + amt, st.phase);
    e.(players := e.players[i := p.(hasActed := true)],
       street := st.(pot := st.pot + amt, actionsThisStreet := st.actionsThisStreet + [act]),
       actions := e.actions + [act])
  }

  /** The street after seat `i` bet or raised to `level`. */
  function Aggress(st: Street, i: Idx, level: real): Street
  {
    st.(currentBet := level, lastAggressor := Some(i), raiseCount := st.raiseCount + 1)
  }

  /** The validations of recordAction: when the action of seat `i` is refused. */
  predicate Refused(e: Engine, i: Idx, a: ActionType, size: Option<real>)
  {
    || e.players[i].folded
    || (a == Check && e.players[i].contributed < e.street.currentBet)
    || (a == Call && e.street.currentBet - e.players[i].contributed <= 0.0)
    || (a == Bet && (e.street.currentBet > 0.0 || NonPositive(size)))
    || (a == Raise && NonPositive(size))
  }

  /** What every recorded action does: only seat `i` changes, its chips are
      conserved and the pot grows by what it put in, it is marked as having
      acted, it is folded exactly when it folded, and the log and the street's
      own list each gain one entry describing the action. Phase, turn and result are left alone. */
  predicate Recorded(e: Engine, i: Idx, a: ActionType, size: Option<real>, r: Engine)
  {
    var p, q := e.players[i], r.players[i];
    var added := q.totalContributed - p.totalContributed;
    && (forall j: Idx :: j != i ==> r.players[j] == e.players[j])
    && q.stack + q.totalContributed == p.stack + p.totalContributed
    && q.contributed - p.contributed == added
    && r.street.pot - e.street.pot == added
    && q.hasActed && q.isHero == p.isHero
    && (q.folded <==> a == Fold)
    && ((a == Fold || a == Check) ==> q.stack == p.stack && q.contributed == p.contributed)
    && r.actions == e.actions + [HandAction(PositionAt(i), a,
                                            if a == Fold || a == Check then size else Some(added),
                                            r.street.pot, e.street.phase)]
    && r.street.actionsThisStreet == e.street.actionsThisStreet + [r.actions[|r.actions| - 1]]
    && r.street.phase == e.street.phase
    && r.street.streetStartingPot == e.street.streetStartingPot
    && r.(players := e.players, street := e.street, actions := e.actions) == e
  }

  /** The betting effect of a recorded action: a call matches the bet or puts
      the caller all-in; a bet is capped at the stack and sets the level; a
      raise goes to its target, capped at stack plus contribution, and sets the
      level; only Bet and Raise make an aggressor and count as a raise. */
  predicate Betting(e: Engine, i: Idx, a: ActionType, size: Option<real>, r: Engine)
  {
    var p, q := e.players[i], r.players[i];
    && (a == Call ==> q.contributed == Min(e.street.currentBet, p.stack + p.contributed))
    && (a == Bet ==> size.Some? && q.contributed == p.contributed + Min(size.value, p.stack))
    && (a == Raise ==> size.Some? && q.contributed == Min(size.value, p.stack + p.contributed))
    && ((a == Bet || a == Raise) ==>
          && r.street.currentBet == q.contributed
          && r.street.lastAggressor == Some(i)
          && r.street.raiseCount == e.street.raiseCount + 1)
    && (!(a == Bet || a == Raise) ==>
          && r.street.currentBet == e.street.currentBet
          && r.street.lastAggressor == e.street.lastAggressor
          && r.street.raiseCount == e.street.raiseCount)
  }

  function RecordFold(e: Engine, i: Idx, size: Option<real>): (r: Engine)
    requires !Refused(e, i, Fold, size)
    ensures Recorded(e, i, Fold, size, r) && Betting(e, i, Fold, size, r)
  {
    Commit(e, i, e.players[i].(folded := true), e.street, Fold, size, 0.0)
  }

  function RecordCheck(e: Engine, i: Idx, size: Option<real>): (r: Engine)
    requires !Refused(e, i, Check, size)
    ensures Recorded(e, i, Check, size, r) && Betting(e, i, Check, size, r)
  {
    Commit(e, i, e.players[i], e.street, Check, size, 0.0)
  }

  function RecordCall(e: Engine, i: Idx, size: Option<real>): (r: Engine)
    requires !Refused(e, i, Call, size)
    ensures Recorded(e, i, Call, size, r) && Betting(e, i, Call, size, r)
  {
    var p := e.players[i];
    var amt := Min(e.street.currentBet - p.contributed, p.stack);
    Commit(e, i, Pay(p, amt), e.street, Call, Some(amt), amt)
  }

  function RecordBet(e: Engine, i: Idx, size: Option<real>): (r: Engine)
    requires !Refused(e, i, Bet, size)
    ensures Recorded(e, i, Bet, size, r) && Betting(e, i, Bet, size, r)
  {
    var p := e.players[i];
    var amt := Min(size.value, p.stack);
    var q := Pay(p, amt);
    Commit(e, i, q, Aggress(e.street, i, q.contributed), Bet, Some(amt), amt)
  }

  function RecordRaise(e: Engine, i: Idx, size: Option<real>): (r: Engine)
    requires !Refused(e, i, Raise, size)
    ensures Recorded(e, i, Raise, size, r) && Betting(e, i, Raise, size, r)
  {
    var p := e.players[i];
    // the size is the street total the raiser goes to
    var target := Min(size.value, p.stack + p.contributed);
    var amt := target - p.contributed;
    Commit(e, i, Pay(p, amt), Aggress(e.street, i, target), Raise, Some(amt), amt)
  }

  /** recordAction: validates the action of seat `i` and, if it is legal,
      applies it. Amounts are capped at the player's stack (all-in). */
  function RecordAction(e: Engine, i: Idx, a: ActionType, size: Option<real>): (r: Result<Engine, EngineError>)
    ensures r.Failure? <==> Refused(e, i, a, size)
    ensures e.players[i].folded ==> r == Failure(AlreadyFolded)
    ensures r.Success? ==> Recorded(e, i, a, size, r.value) && Betting(e, i, a, size, r.value)
  {
    var p := e.players[i];
    if p.folded then Failure(AlreadyFolded)
    else
      match a
      case Fold => Success(RecordFold(e, i, size))
      case Check =>
        if p.contributed < e.street.currentBet then Failure(CannotCheck)
        else Success(RecordCheck(e, i, size))
      case Call =>
        if e.street.currentBet - p.contributed <= 0.0 then Failure(NothingToCall)
        else Success(RecordCall(e, i, size))
      case Bet =>
        if e.street.currentBet > 0.0 then Failure(BetAlreadyMade)
        else if NonPositive(size) then Failure(BetSizeNotPositive)
        else Success(RecordBet(e, i, size))
      case Raise =>
        if NonPositive(size) then Failure(RaiseSizeNotPositive)
        else Success(RecordRaise(e, i, size))
  }

  /** recordAction(position, 'Fold') with no size, for a seat that has not folded. */
  function FoldSeat(e: Engine, i: Idx): (r: Engine)
    requires !e.players[i].folded
    ensures r == RecordAction(e, i, Fold, None).value
    ensures OnlyFolds(e, r)
    ensures r.players[i].folded
  {
    RecordFold(e, i, None)
  }

  /** `e2` differs from `e1` only by folds: some seats newly folded (and
      marked as having acted), the logs extended, nothing else touched. */
  predicate OnlyFolds(e1: Engine, e2: Engine)
  {
    && (forall j: Idx :: e2.players[j] == e1.players[j]
          || (!e1.players[j].folded && e2.players[j] == e1.players[j].(folded := true, hasActed := true)))
    && e2.street.(actionsThisStreet := e1.street.actionsThisStreet) == e1.street
    && e2.(players := e1.players, street := e1.street, actions := e1.actions) == e1
    && |e1.actions| <= |e2.actions| && e2.actions[..|e1.actions|] == e1.actions
  }

  lemma OnlyFoldsTransitive(e1: Engine, e2: Engine, e3: Engine)
    requires OnlyFolds(e1, e2) && OnlyFolds(e2, e3)
    ensures OnlyFolds(e1, e3)
  {
    assert e3.actions[..|e1.actions|] == e2.actions[..|e2.actions|][..|e1.actions|];
  }

  /** Termination measure of the skip: each step folds one more player. */
  function SkipMeasure(e: Engine, idx: Idx): nat
  {
    ActiveCount(e.players) + (if e.players[idx].folded then 1 else 0)
  }

  /** autoFoldBetween(idx, end): from `idx`, fold every player not yet folded
      and step to the next seat that can act, until `end` is reached or no
      seat can act. */
  function AutoFold(e: Engine, idx: Idx, end: Idx): (r: Engine)
    ensures OnlyFolds(e, r)
    ensures idx != end && !e.players[idx].folded ==> r.players[idx].folded
    decreases SkipMeasure(e, idx)
  {
    if idx == end then e
    else
      var e1 := if !e.players[idx].folded then FoldSeat(e, idx) else e;
      match NextActive(e1.players, Some(idx))
      case None => e1
      case Some(n) =>
        var r := AutoFold(e1, n, end);
        OnlyFoldsTransitive(e, e1, r);
        r
  }
}

=== FILE: scenarios.dfy ===
/** Concrete hands played through the model from the opening state, for any
    starting stack of at least 4 big blinds. */
module Scenarios {
  import opened Wrappers
  import opened PokerTypes
  import opened EngineState
  import opened Recording
  import opened StreetFlow
  import opened EngineApi
  import opened EngineQueries

  /** The log entry of a Fold by seat `i` in state `e`. */
  function FoldEntry(e: Engine, i: Idx): HandAction
  {
    HandAction(PositionAt(i), Fold, None, e.street.pot, e.street.phase)
  }

  /** What folding one seat does, spelled out. */
  lemma FoldSeatEffect(e: Engine, i: Idx)
    requires !e.players[i].folded
    ensures FoldSeat(e, i).players == e.players[i := e.players[i].(folded := true, hasActed := true)]
    ensures FoldSeat(e, i).actions == e.actions + [FoldEntry(e, i)]
    ensures FoldSeat(e, i).street.(actionsThisStreet := e.street.actionsThisStreet) == e.street
    ensures FoldSeat(e, i).actor == e.actor
  {
  }

  /** The next seat that can act, identified by the seats before it. */
  lemma NextActiveIs(ps: Table, from: Option<Idx>, n: Idx)
    requires CanAct(ps[n])
    requires forall j: Idx :: Dist(StartOf(from), j) < Dist(StartOf(from), n) ==> !CanAct(ps[j])
    ensures NextActive(ps, from) == Some(n)
  {
    var r := NextActive(ps, from);
    assert r.Some?;
    assert Dist(StartOf(from), r.value) == Dist(StartOf(from), n);
  }

  /** One step of the preflop skip from a seat still in. */
  lemma AutoFoldStep(e: Engine, idx: Idx, end: Idx, n: Idx)
    requires idx != end && !e.players[idx].folded
    requires NextActive(FoldSeat(e, idx).players, Some(idx)) == Some(n)
    ensures AutoFold(e, idx, end) == AutoFold(FoldSeat(e, idx), n, end)
  {
  }

  /** The opening state with stacks of `s` and no hero; everyone can act. */
  lemma StartFacts(s: real)
    requires s >= 4.0
    ensures forall i: Idx :: CanAct(Init(None, s).players[i])
  {
  }

  /** The state after the skip from UTG to BTN: UTG, HJ and CO folded, in
      that order, nothing else changed. */
  function AfterButtonSkip(s: real): Engine
  {
    var e := Init(None, s);
    FoldSeat(FoldSeat(FoldSeat(e, 2), 3), 4)
  }

  /** The skip from UTG to BTN folds UTG, HJ and CO, in that order. */
  lemma ButtonSkipIs(s: real)
    requires s >= 4.0
    ensures SkipTo(Init(None, s), IndexOf(BTN)) == AfterButtonSkip(s)
  {
    StartFacts(s);
    SkipUtgToButton(Init(None, s));
  }

  lemma SkipUtgToButton(e: Engine)
    requires forall i: Idx :: CanAct(e.players[i])
    ensures AutoFold(e, 2, 5) == FoldSeat(FoldSeat(FoldSeat(e, 2), 3), 4)
  {
    SkipOne(e, 2, 5);
    var f2 := FoldSeat(e, 2);
    SkipOne(f2, 3, 5);
    var f3 := FoldSeat(f2, 3);
    SkipOne(f3, 4, 5);
  }

  /** A skip step from `i` to the next seat `i + 1`, which can act. */
  lemma SkipOne(e: Engine, i: Idx, end: Idx)
    requires i < 5 && i != end && !e.players[i].folded && CanAct(e.players[i + 1])
    ensures AutoFold(e, i, end) == AutoFold(FoldSeat(e, i), i + 1, end)
    ensures forall j: Idx :: j != i ==> FoldSeat(e, i).players[j] == e.players[j]
  {
    FoldSeatEffect(e, i);
    NextActiveIs(FoldSeat(e, i).players, Some(i), i + 1);
    AutoFoldStep(e, i, end, i + 1);
  }

  lemma ButtonSkipState(s: real)
    requires s >= 4.0
    ensures var e, f := Init(None, s), AfterButtonSkip(s);
      && (forall i: Idx :: f.players[i].folded <==> 2 <= i <= 4)
      && (forall i: Idx :: i < 2 || i == 5 ==> f.players[i] == e.players[i])
      && f.actions == [FoldEntry(e, 2), FoldEntry(e, 3), FoldEntry(e, 4)]
      && f.street == e.street.(actionsThisStreet := f.street.actionsThisStreet)
      && f.actor == e.actor && !f.waitingForBoard
  {
    var e := Init(None, s);
    var f2 := FoldSeat(e, 2);
    FoldSeatEffect(e, 2);
    var f3 := FoldSeat(f2, 3);
    FoldSeatEffect(f2, 3);
    FoldSeatEffect(f3, 4);
  }

  /** The turn passes to `n`, the next seat that can act, while some seat
      that can act has not yet acted and two or more players are in. */
  lemma AdvanceTo(e: Engine, n: Idx, waiting: Idx)
    requires ActiveCount(e.players) > 1
    requires NextActive(e.players, e.actor) == Some(n)
    requires CanAct(e.players[waiting]) && !e.players[waiting].hasActed
    ensures Advance(e) == e.(actor := Some(n))
  {
    assert !AllActed(e.players);
  }

  /** BTN's open to 3 in the state after the skip. */
  function ButtonOpened(s: real): Engine
    requires s >= 4.0
  {
    var f := AfterButtonSkip(s);
    ButtonSkipState(s);
    RecordAction(f, 5, Raise, Some(3.0)).value
  }

  lemma ButtonOpenedState(s: real)
    requires s >= 4.0
    ensures var e, b := Init(None, s), ButtonOpened(s);
      && (forall i: Idx :: b.players[i].folded <==> 2 <= i <= 4)
      && (forall i: Idx :: i < 2 ==> b.players[i] == e.players[i])
      && b.players[5].contributed == 3.0 && b.players[5].stack == s - 3.0
      && b.actions == [FoldEntry(e, 2), FoldEntry(e, 3), FoldEntry(e, 4),
                       HandAction(BTN, Raise, Some(3.0), 4.5, Preflop)]
      && b.street.pot == 4.5 && b.street.currentBet == 3.0 && b.street.raiseCount == 1
      && b.actor == Some(PreflopStart) && !b.waitingForBoard
  {
    ButtonSkipState(s);
  }

  /** BTN opens to 3: UTG, HJ and CO are folded for it, in that order, the
      raise is logged after them, and SB is next to act. */
  lemma ButtonOpenHandsTurnToSmallBlind(s: real)
    requires s >= 4.0
    ensures var e := Init(None, s);
      var r := AddPreflopAction(e, BTN, Raise, Some(3.0));
      && r == Accepted(ButtonOpened(s).(actor := Some(IndexOf(SB))))
      && CurrentActor(r.engine) == Some(SB)
  {
    ButtonSkipIs(s);
    ButtonOpenedState(s);
    var b := ButtonOpened(s);
    StartFacts(s);
    NextActiveIs(b.players, Some(5), 0);
    AdvanceTo(b.(actor := Some(5)), 0, 0);
  }

  /** The same opening as the source writes addPreflopAction: the turn is
      advanced from the current-actor index, still UTG's, so BTN, who has
      just raised, is shown as next to act instead of SB. */
  lemma ButtonOpenAsWrittenLeavesButtonToAct(s: real)
    requires s >= 4.0
    ensures var e := Init(None, s);
      var r := AddPreflopActionAsWritten(e, BTN, Raise, Some(3.0));
      && r == Accepted(ButtonOpened(s).(actor := Some(IndexOf(BTN))))
      && CurrentActor(r.engine) == Some(BTN)
  {
    ButtonSkipIs(s);
    ButtonOpenedState(s);
    var b := ButtonOpened(s);
    NextActiveIs(b.players, Some(2), 5);
    StartFacts(s);
    AdvanceTo(b, 5, 0);
  }

  /** Continuing the hand as the code is written: SB now folds. The skip runs from the stale
      actor BTN to SB and folds BTN, who raised; BB is left alone and the hand
      ends as a fold. */
  lemma AsWrittenSmallBlindFoldFoldsRaiser(s: real)
    requires s >= 4.0
    ensures var e := ButtonOpened(s).(actor := Some(IndexOf(BTN)));
      var r := AddPreflopActionAsWritten(e, SB, Fold, None);
      && r.Accepted?
      && r.engine.players[IndexOf(BTN)].folded
      && IsHandComplete(r.engine) && GetCompletionType(r.engine) == FoldEnd
  {
    ButtonOpenedState(s);
    StartFacts(s);
    var e := ButtonOpened(s).(actor := Some(5));
    var f := FoldSeat(e, 5);
    FoldSeatEffect(e, 5);
    NextActiveIs(f.players, Some(5), 0);
    AutoFoldStep(e, 5, 0, 0);
    assert SkipTo(e, 0) == f;
    var g := RecordAction(f, 0, Fold, None).value;
    assert forall i: Idx :: g.players[i].folded <==> i != 1;
    assert ActiveCount(g.players) == 1;
  }

  /** The corrected run: SB folds with the turn already on SB, nothing is
      skipped, BTN's raise stands and BB is to act. */
  lemma SmallBlindFoldHandsTurnToBigBlind(s: real)
    requires s >= 4.0
    ensures var e := ButtonOpened(s).(actor := Some(IndexOf(SB)));
      var r := AddPreflopAction(e, SB, Fold, None);
      && r.Accepted?
      && !r.engine.players[IndexOf(BTN)].folded
      && CurrentActor(r.engine) == Some(BB)
  {
    ButtonOpenedState(s);
    StartFacts(s);
    var e := ButtonOpened(s).(actor := Some(0));
    var g := RecordAction(e, 0, Fold, None).value;
    assert forall i: Idx :: g.players[i].folded <==> i in {0, 2, 3, 4};
    assert ActiveCount(g.players) == 2;
    NextActiveIs(g.players, Some(0), 1);
    AdvanceTo(g.(actor := Some(0)), 1, 1);
  }

  /** The skip from UTG towards a blind, up to BTN's fold. */
  lemma SkipUtgRound(e: Engine, end: Idx)
    requires forall i: Idx :: CanAct(e.players[i])
    requires end < 2
    ensures AutoFold(e, 2, end) == AutoFold(FoldAround(e), 0, end)
  {
    SkipOne(e, 2, end);
    var f2 := FoldSeat(e, 2);
    SkipOne(f2, 3, end);
    var f3 := FoldSeat(f2, 3);
    SkipOne(f3, 4, end);
    var f4 := FoldSeat(f3, 4);
    FoldSeatEffect(f4, 5);
    NextActiveIs(FoldSeat(f4, 5).players, Some(5), 0);
    AutoFoldStep(f4, 5, end, 0);
  }

  /** UTG, HJ, CO and BTN folded, in that order. */
  function FoldAround(e: Engine): Engine
    requires forall i: Idx :: !e.players[i].folded
  {
    var f2 := FoldSeat(e, 2);
    var f3 := FoldSeat(f2, 3);
    var f4 := FoldSeat(f3, 4);
    FoldSeat(f4, 5)
  }

  lemma FoldAroundState(e: Engine)
    requires forall i: Idx :: !e.players[i].folded
    ensures forall i: Idx :: FoldAround(e).players[i].folded <==> i >= 2
    ensures forall i: Idx :: i < 2 ==> FoldAround(e).players[i] == e.players[i]
    ensures FoldAround(e).actions == e.actions + [FoldEntry(e, 2), FoldEntry(e, 3), FoldEntry(e, 4), FoldEntry(e, 5)]
    ensures FoldAround(e).street == e.street.(actionsThisStreet := FoldAround(e).street.actionsThisStreet)
    ensures FoldAround(e).(players := e.players, street := e.street, actions := e.actions) == e
  {
    var f2 := FoldSeat(e, 2);
    FoldSeatEffect(e, 2);
    var f3 := FoldSeat(f2, 3);
    FoldSeatEffect(f2, 3);
    var f4 := FoldSeat(f3, 4);
    FoldSeatEffect(f3, 4);
    FoldSeatEffect(f4, 5);
  }

  /** A Call by BB from the opening state folds everyone from UTG round to
      SB and is then refused, since BB has nothing to call: the refusal leaves
      the five folds behind and BB alone in the hand. */
  lemma RefusedBigBlindCallLeavesFolds(s: real)
    requires s >= 4.0
    ensures var r := AddPreflopAction(Init(None, s), BB, Call, None);
      && r.Rejected? && r.error == NothingToCall
      && |r.engine.actions| == 5
      && (forall i: Idx :: r.engine.players[i].folded <==> i != IndexOf(BB))
      && IsHandComplete(r.engine)
  {
    var e := Init(None, s);
    StartFacts(s);
    SkipToBigBlind(e);
  }

  /** The skip from UTG round to BB folds the five other seats. */
  lemma SkipToBigBlind(e: Engine)
    requires forall i: Idx :: CanAct(e.players[i])
    requires e.actor == Some(2)
    ensures var f0 := SkipTo(e, 1);
      && |f0.actions| == |e.actions| + 5
      && (forall i: Idx :: f0.players[i].folded <==> i != 1)
      && f0.players[1] == e.players[1] && f0.street.currentBet == e.street.currentBet
  {
    SkipUtgRound(e, 1);
    var f5 := FoldAround(e);
    FoldAroundState(e);
    SkipOne(f5, 0, 1);
    FoldSeatEffect(f5, 0);
  }

  /** Heads-up between the blinds at the start of street `ph`, board not yet
      confirmed: SB first to act, nothing bet, the pot at 2 big blinds. */
  predicate HeadsUpStreet(e: Engine, ph: Phase)
  {
    && e.street.phase == ph && e.waitingForBoard && e.actor == Some(IndexOf(SB))
    && (forall i: Idx :: e.players[i].folded <==> i >= 2)
    && CanAct(e.players[0]) && CanAct(e.players[1])
    && !e.players[0].hasActed && !e.players[1].hasActed
    && e.players[0].contributed == 0.0 && e.players[1].contributed == 0.0
    && e.street.currentBet == 0.0 && e.street.raiseCount == 0 && e.street.pot == 2.0 && e.handResult.None?
  }

  /** The board is confirmed, then SB checks and BB checks. */
  function CheckRound(e: Engine): Outcome
  {
    match AddPostflopAction(ConfirmBoard(e), SB, Check, None)
    case Rejected(err, x) => Rejected(err, x)
    case Accepted(e1) => AddPostflopAction(e1, BB, Check, None)
  }

  /** SB's check hands the turn to BB. */
  lemma SmallBlindChecks(e: Engine, ph: Phase)
    requires HeadsUpStreet(e, ph) && ph != Preflop
    ensures var c := ConfirmBoard(e);
      var r := AddPostflopAction(c, SB, Check, None);
      && r.Accepted? && r.engine.actor == Some(IndexOf(BB)) && !r.engine.waitingForBoard
      && r.engine.players == c.players[0 := c.players[0].(hasActed := true)]
      && r.engine.street.(actionsThisStreet := c.street.actionsThisStreet) == c.street
      && |r.engine.actions| == |e.actions| + 1 && r.engine.handResult.None?
      && r.engine.street.raiseCount == 0
  {
    var c := ConfirmBoard(e);
    assert AnyCanAct(e.players) by { assert CanAct(e.players[0]); }
    assert c == e.(waitingForBoard := false);
    var e1 := RecordAction(c, 0, Check, None).value;
    assert e1.players == c.players[0 := c.players[0].(hasActed := true)];
    assert ActiveCount(e1.players) == 2;
    NextActiveIs(e1.players, Some(0), 1);
    AdvanceTo(e1, 1, 1);
  }

  /** BB to close the street by checking: SB has acted, the two are level. */
  predicate BigBlindToClose(e: Engine, ph: Phase)
  {
    && e.street.phase == ph && !e.waitingForBoard && e.actor == Some(IndexOf(BB))
    && (forall i: Idx :: e.players[i].folded <==> i >= 2)
    && CanAct(e.players[0]) && CanAct(e.players[1])
    && e.players[0].hasActed && !e.players[1].hasActed
    && e.players[0].contributed == e.players[1].contributed == e.street.currentBet
    && e.street.raiseCount == 0 && e.street.pot == 2.0 && e.handResult.None?
  }

  /** BB's check is accepted and closes the street. */
  lemma BigBlindCheckCloses(e: Engine, ph: Phase)
    requires BigBlindToClose(e, ph)
    ensures RecordAction(e, 1, Check, None).Success?
    ensures var e1 := RecordAction(e, 1, Check, None).value;
      && IsStreetComplete(e1, None) && ActiveCount(e1.players) == 2
      && e1.actor == Some(1) && !e1.waitingForBoard && e1.street.phase == ph
      && (forall i: Idx :: e1.players[i].folded <==> i >= 2)
      && CanAct(e1.players[0]) && CanAct(e1.players[1])
      && e1.street.pot == 2.0 && e1.handResult.None? && |e1.actions| == |e.actions| + 1
  {
    var e1 := RecordAction(e, 1, Check, None).value;
    assert forall i: Idx :: CanAct(e1.players[i]) ==> e1.players[i].hasActed;
    assert AllMatched(e1.players, e1.street.currentBet);
    assert ActiveCount(e1.players) == 2;
  }

  /** A street closed before the river, two players in, opens the next
      street heads-up. */
  lemma ClosedStreetOpensNext(e1: Engine, ph: Phase)
    requires ph != River
    requires && IsStreetComplete(e1, None) && ActiveCount(e1.players) == 2
      && !e1.waitingForBoard && e1.street.phase == ph
      && (forall i: Idx :: e1.players[i].folded <==> i >= 2)
      && CanAct(e1.players[0]) && CanAct(e1.players[1])
      && e1.street.pot == 2.0 && e1.handResult.None?
    ensures HeadsUpStreet(Advance(e1), NextPhase(ph))
    ensures Advance(e1).actions == e1.actions
  {
    var r := Advance(e1);
    assert NextStreetOf(e1, r);
    NextActiveIs(r.players, None, 0);
  }

  /** BB's check closes the preflop street and the flop opens heads-up. */
  lemma BigBlindChecksPreflop(e: Engine)
    requires BigBlindToClose(e, Preflop)
    ensures var r := AddPreflopAction(e, BB, Check, None);
      && r.Accepted? && HeadsUpStreet(r.engine, Flop) && |r.engine.actions| == |e.actions| + 1
  {
    BigBlindCheckCloses(e, Preflop);
    var e1 := RecordAction(e, 1, Check, None).value;
    ClosedStreetOpensNext(e1, Preflop);
    assert e1.(actor := Some(1)) == e1;
  }

  /** BB's check closes the flop or the turn and the next street opens heads-up. */
  lemma BigBlindChecksPostflop(e: Engine, ph: Phase)
    requires BigBlindToClose(e, ph) && (ph == Flop || ph == Turn)
    ensures var r := AddPostflopAction(e, BB, Check, None);
      && r.Accepted? && HeadsUpStreet(r.engine, NextPhase(ph)) && |r.engine.actions| == |e.actions| + 1
  {
    BigBlindCheckCloses(e, ph);
    ClosedStreetOpensNext(RecordAction(e, 1, Check, None).value, ph);
  }

  /** BB's check on the river ends the hand at showdown, ready for a result. */
  lemma BigBlindChecksOnRiver(e: Engine)
    requires BigBlindToClose(e, River)
    ensures var r := AddPostflopAction(e, BB, Check, None);
      && r.Accepted? && r.engine.actor.None? && CurrentActor(r.engine).None?
      && IsHandComplete(r.engine) && IsReadyForResult(r.engine)
      && GetCompletionType(r.engine) == ShowdownEnd
      && r.engine.street.pot == 2.0 && |r.engine.actions| == |e.actions| + 1
  {
    var e1 := RecordAction(e, 1, Check, None).value;
    assert forall i: Idx :: CanAct(e1.players[i]) ==> e1.players[i].hasActed;
    assert AllMatched(e1.players, e1.street.currentBet);
    assert ActiveCount(e1.players) == 2;
    assert CanAct(e1.players[0]);
    assert IsStreetComplete(e1, None);
  }

  /** After the confirmed board, two checks on the flop or turn open the next
      street heads-up. */
  lemma CheckRoundOpensNextStreet(e: Engine, ph: Phase)
    requires HeadsUpStreet(e, ph) && (ph == Flop || ph == Turn)
    ensures CheckRound(e).Accepted?
    ensures HeadsUpStreet(CheckRound(e).engine, NextPhase(ph))
    ensures |CheckRound(e).engine.actions| == |e.actions| + 2
  {
    SmallBlindChecks(e, ph);
    var e1 := AddPostflopAction(ConfirmBoard(e), SB, Check, None).engine;
    assert BigBlindToClose(e1, ph);
    BigBlindChecksPostflop(e1, ph);
  }

  /** Two checks on the river end the hand. */
  lemma CheckRoundOnRiverEndsHand(e: Engine)
    requires HeadsUpStreet(e, River)
    ensures CheckRound(e).Accepted?
    ensures var r := CheckRound(e).engine;
      && r.actor.None? && CurrentActor(r).None? && IsHandComplete(r) && IsReadyForResult(r)
      && GetCompletionType(r) == ShowdownEnd && r.street.pot == 2.0
      && |r.actions| == |e.actions| + 2
  {
    SmallBlindChecks(e, River);
    var e1 := AddPostflopAction(ConfirmBoard(e), SB, Check, None).engine;
    assert BigBlindToClose(e1, River);
    BigBlindChecksOnRiver(e1);
  }

  /** SB completes the blind: the four seats before it are folded for it and
      BB is to close the preflop street. */
  lemma SmallBlindLimps(s: real)
    requires s >= 4.0
    ensures var r := AddPreflopAction(Init(None, s), SB, Call, None);
      && r.Accepted? && BigBlindToClose(r.engine, Preflop) && |r.engine.actions| == 5
  {
    var e := Init(None, s);
    StartFacts(s);
    SkipToSmallBlind(e);
    var f := FoldAround(e);
    var e1 := RecordAction(f, 0, Call, None).value;
    assert e1.players[0].contributed == 1.0 && e1.street.pot == 2.0;
    assert forall i: Idx :: e1.players[i].folded <==> i >= 2;
    assert ActiveCount(e1.players) == 2;
    NextActiveIs(e1.players, Some(0), 1);
    AdvanceTo(e1.(actor := Some(0)), 1, 1);
  }

  /** The skip from UTG round to SB folds the four seats in between. */
  lemma SkipToSmallBlind(e: Engine)
    requires forall i: Idx :: CanAct(e.players[i])
    requires e.actor == Some(2)
    ensures SkipTo(e, 0) == FoldAround(e)
    ensures forall i: Idx :: FoldAround(e).players[i].folded <==> i >= 2
    ensures forall i: Idx :: i < 2 ==> FoldAround(e).players[i] == e.players[i]
    ensures |FoldAround(e).actions| == |e.actions| + 4
    ensures FoldAround(e).street == e.street.(actionsThisStreet := FoldAround(e).street.actionsThisStreet)
    ensures FoldAround(e).(players := e.players, street := e.street, actions := e.actions) == e
  {
    SkipUtgRound(e, 0);
    FoldAroundState(e);
  }

  /** The preflop street of a hand played between the blinds: SB completes
      and BB checks. */
  function LimpedPreflop(s: real): Outcome
  {
    match AddPreflopAction(Init(None, s), SB, Call, None)
    case Rejected(err, x) => Rejected(err, x)
    case Accepted(limped) => AddPreflopAction(limped, BB, Check, None)
  }

  /** Flop, turn and river, each confirmed and checked by both blinds. None
      when a step is refused. */
  function CheckedStreets(flop: Engine): Option<Engine>
  {
    match CheckRound(flop)
    case Rejected(_, _) => None
    case Accepted(turn) =>
      match CheckRound(turn)
      case Rejected(_, _) => None
      case Accepted(river) =>
        match CheckRound(river)
        case Rejected(_, _) => None
        case Accepted(done) => Some(done)
  }

  /** A hand checked down between the blinds. */
  function CheckedDownHand(s: real): Option<Engine>
  {
    match LimpedPreflop(s)
    case Rejected(_, _) => None
    case Accepted(flop) => CheckedStreets(flop)
  }

  lemma LimpedPreflopOpensFlop(s: real)
    requires s >= 4.0
    ensures LimpedPreflop(s).Accepted?
    ensures HeadsUpStreet(LimpedPreflop(s).engine, Flop)
    ensures |LimpedPreflop(s).engine.actions| == 6
  {
    SmallBlindLimps(s);
    var limped := AddPreflopAction(Init(None, s), SB, Call, None).engine;
    BigBlindChecksPreflop(limped);
  }

  lemma CheckedStreetsEndHand(flop: Engine)
    requires HeadsUpStreet(flop, Flop)
    ensures CheckedStreets(flop).Some?
    ensures var r := CheckedStreets(flop).value;
      && r.street.phase == River && r.actor.None? && CurrentActor(r).None?
      && IsHandComplete(r) && IsReadyForResult(r) && GetCompletionType(r) == ShowdownEnd
      && r.street.pot == 2.0 && |r.actions| == |flop.actions| + 6
  {
    CheckRoundOpensNextStreet(flop, Flop);
    var turn := CheckRound(flop).engine;
    CheckRoundOpensNextStreet(turn, Turn);
    var river := CheckRound(turn).engine;
    CheckRoundOnRiverEndsHand(river);
  }

  /** Every step of the checked-down hand is accepted and the hand ends
      complete at showdown with no actor, twelve actions logged (four folds,
      the completion, seven checks) and the two blinds' 2 big blinds in the pot. */
  lemma CheckedDownHandEndsComplete(s: real)
    requires s >= 4.0
    ensures CheckedDownHand(s).Some?
    ensures var r := CheckedDownHand(s).value;
      && r.street.phase == River && r.actor.None? && CurrentActor(r).None?
      && IsHandComplete(r) && IsReadyForResult(r) && GetCompletionType(r) == ShowdownEnd
      && r.street.pot == 2.0 && |r.actions| == 12
  {
    LimpedPreflopOpensFlop(s);
    CheckedStreetsEndHand(LimpedPreflop(s).engine);
  }
}

=== FILE: skip_proof.dfy ===
/** The preflop skip (autoFoldBetween) folds exactly the seats passed over:
    the seat it starts from, if still in, then every seat clockwise up to but
    not including the target that can still act. When the target itself
    cannot act, the walk goes once round the table. */
module SkipProof {
  import opened Wrappers
  import opened PokerTypes
  import opened EngineState
  import opened Recording

  /** The seat `k` steps clockwise from `a`. */
  function Seat(a: Idx, k: nat): Idx
  {
    (a + k) % 6
  }

  lemma DistOfSeat(a: Idx, k: nat)
    requires 1 <= k <= 6
    ensures Dist(a, Seat(a, k)) == k
  {
  }

  lemma SeatOfDist(a: Idx, j: Idx)
    ensures Seat(a, Dist(a, j) as nat) == j
  {
  }

  lemma SeatShift(a: Idx, m: nat, k: nat)
    requires m <= k <= 12
    ensures Seat(Seat(a, m), k - m) == Seat(a, k)
  {
  }

  /** Distances add up along the clockwise order. */
  lemma DistSplit(a: Idx, n: Idx, x: Idx)
    requires Dist(a, n) < Dist(a, x)
    ensures Dist(n, x) == Dist(a, x) - Dist(a, n)
  {
  }

  /** The seats at clockwise distance k, ..., d-1 from `a` that can act, in order. */
  function Clockwise(ps: Table, a: Idx, k: nat, d: nat): seq<Idx>
    requires k <= d
    decreases d - k
  {
    if k == d then []
    else (if CanAct(ps[Seat(a, k)]) then [Seat(a, k)] else []) + Clockwise(ps, a, k + 1, d)
  }

  /** Where the walk from `a` stops: at `end` if it can act, else once round. */
  function Reach(ps: Table, a: Idx, end: Idx): nat
  {
    if CanAct(ps[end]) then Dist(a, end) as nat else 6
  }

  /** The seats the skip from `a` to `end` folds, in the order it folds them. */
  function Skipped(ps: Table, a: Idx, end: Idx): seq<Idx>
  {
    if a == end then []
    else (if !ps[a].folded then [a] else []) + Clockwise(ps, a, 1, Reach(ps, a, end))
  }

  /** The seats are all still in and none is listed twice. */
  predicate Foldable(ps: Table, seats: seq<Idx>)
  {
    && (forall i :: 0 <= i < |seats| ==> !ps[seats[i]].folded)
    && (forall i, j :: 0 <= i < j < |seats| ==> seats[i] != seats[j])
  }

  /** Folds the given seats one after another, each with a logged Fold. */
  function FoldAll(e: Engine, seats: seq<Idx>): Engine
    requires Foldable(e.players, seats)
    decreases |seats|
  {
    if seats == [] then e
    else
      FoldAllStep(e, seats[0], seats[1..]);
      FoldAll(FoldSeat(e, seats[0]), seats[1..])
  }

  lemma {:induction false} ClockwiseMembers(ps: Table, a: Idx, k: nat, d: nat)
    requires 1 <= k <= d <= 6
    ensures forall s: Idx :: s in Clockwise(ps, a, k, d) <==> k <= Dist(a, s) < d && CanAct(ps[s])
    decreases d - k
  {
    if k < d {
      ClockwiseMembers(ps, a, k + 1, d);
      DistOfSeat(a, k);
      forall s: Idx | k <= Dist(a, s) < d && CanAct(ps[s])
        ensures s in Clockwise(ps, a, k, d)
      {
        if Dist(a, s) == k { SeatOfDist(a, s); }
      }
    }
  }

  lemma {:induction false} ClockwiseDistinct(ps: Table, a: Idx, k: nat, d: nat)
    requires 1 <= k <= d <= 6
    ensures forall i, j :: 0 <= i < j < |Clockwise(ps, a, k, d)| ==> Clockwise(ps, a, k, d)[i] != Clockwise(ps, a, k, d)[j]
    decreases d - k
  {
    if k < d {
      ClockwiseDistinct(ps, a, k + 1, d);
      ClockwiseMembers(ps, a, k + 1, d);
      DistOfSeat(a, k);
    }
  }

  /** The skipped seats can be folded in turn: all in, none twice. */
  lemma SkippedFoldable(ps: Table, a: Idx, end: Idx)
    ensures Foldable(ps, Skipped(ps, a, end))
  {
    if a != end {
      var d := Reach(ps, a, end);
      var cw := Clockwise(ps, a, 1, d);
      ClockwiseFoldable(ps, a, d);
      if !ps[a].folded {
        assert a !in cw by {
          ClockwiseMembers(ps, a, 1, d);
          assert Dist(a, a) == 6;
        }
        ConsFoldable(ps, a, cw);
      } else {
        assert Skipped(ps, a, end) == cw;
      }
    }
  }

  lemma ClockwiseFoldable(ps: Table, a: Idx, d: nat)
    requires 1 <= d <= 6
    ensures Foldable(ps, Clockwise(ps, a, 1, d))
  {
    var cw := Clockwise(ps, a, 1, d);
    ClockwiseMembers(ps, a, 1, d);
    ClockwiseDistinct(ps, a, 1, d);
    assert forall i :: 0 <= i < |cw| ==> cw[i] in cw;
  }

  lemma ConsFoldable(ps: Table, s: Idx, rest: seq<Idx>)
    requires !ps[s].folded && s !in rest && Foldable(ps, rest)
    ensures Foldable(ps, [s] + rest)
  {
    var l := [s] + rest;
    forall i | 1 <= i < |l|
      ensures l[i] == rest[i - 1] && l[i] != s
    {
      assert rest[i - 1] in rest;
    }
  }

  lemma {:induction false} ClockwiseEmpty(ps: Table, a: Idx, k: nat, d: nat)
    requires k <= d
    requires forall m: nat :: k <= m < d ==> !CanAct(ps[Seat(a, m)])
    ensures Clockwise(ps, a, k, d) == []
    decreases d - k
  {
    if k < d { ClockwiseEmpty(ps, a, k + 1, d); }
  }

  lemma {:induction false} ClockwiseSplit(ps: Table, a: Idx, k: nat, m: nat, d: nat)
    requires k <= m <= d
    ensures Clockwise(ps, a, k, d) == Clockwise(ps, a, k, m) + Clockwise(ps, a, m, d)
    decreases m - k
  {
    if k < m { ClockwiseSplit(ps, a, k + 1, m, d); }
  }

  lemma ClockwiseHead(ps: Table, a: Idx, k: nat, d: nat)
    requires k < d
    ensures Clockwise(ps, a, k, d) == (if CanAct(ps[Seat(a, k)]) then [Seat(a, k)] else []) + Clockwise(ps, a, k + 1, d)
  {
  }

  /** The same walk seen from a seat `m` steps further on. */
  lemma {:induction false} ClockwiseShift(ps: Table, a: Idx, m: nat, k: nat, d: nat)
    requires m <= k <= d <= 12
    ensures Clockwise(ps, a, k, d) == Clockwise(ps, Seat(a, m), k - m, d - m)
    decreases d - k
  {
    if k < d {
      var b := Seat(a, m);
      SeatShift(a, m, k);
      ClockwiseShift(ps, a, m, k + 1, d);
      ClockwiseHead(ps, a, k, d);
      ClockwiseHead(ps, b, k - m, d - m);
    }
  }

  /** Two tables on which the same seats can act give the same walk. */
  lemma {:induction false} ClockwiseAgree(ps: Table, qs: Table, a: Idx, k: nat, d: nat)
    requires k <= d
    requires forall m: nat :: k <= m < d ==> CanAct(ps[Seat(a, m)]) == CanAct(qs[Seat(a, m)])
    ensures Clockwise(ps, a, k, d) == Clockwise(qs, a, k, d)
    decreases d - k
  {
    if k < d { ClockwiseAgree(ps, qs, a, k + 1, d); }
  }

  /** The next seat that can act after `idx`, and the seats passed to reach it. */
  lemma NextAfter(ps: Table, qs: Table, idx: Idx, n: Idx)
    requires forall j: Idx :: j != idx ==> qs[j] == ps[j]
    requires !CanAct(qs[idx])
    requires NextActive(qs, Some(idx)) == Some(n)
    ensures n != idx && 1 <= Dist(idx, n) <= 5 && Seat(idx, Dist(idx, n) as nat) == n
    ensures CanAct(ps[n])
    ensures forall m: nat :: 1 <= m < Dist(idx, n) ==> !CanAct(ps[Seat(idx, m)]) && !CanAct(qs[Seat(idx, m)])
    ensures forall j: Idx :: j != idx && CanAct(ps[j]) ==> Dist(idx, n) <= Dist(idx, j)
  {
    DistOfSeat(idx, 6);
    SeatOfDist(idx, n);
    forall m: nat | 1 <= m < Dist(idx, n)
      ensures !CanAct(ps[Seat(idx, m)]) && !CanAct(qs[Seat(idx, m)])
    {
      DistOfSeat(idx, m);
    }
  }

  /** Seen from `n`, the seats `idx` and those between `idx` and `n` come
      last, at distances 6 - dn .. 5, and none of them can act. */
  lemma TailBehind(qs: Table, idx: Idx, n: Idx, dn: nat)
    requires 1 <= dn <= 5 && Seat(idx, dn) == n
    requires !CanAct(qs[idx])
    requires forall m: nat :: 1 <= m < dn ==> !CanAct(qs[Seat(idx, m)])
    ensures Clockwise(qs, n, 6 - dn, 6) == []
  {
    forall m: nat | 6 - dn <= m < 6
      ensures !CanAct(qs[Seat(n, m)])
    {
      SeatShift(idx, dn, dn + m);
      if dn + m == 6 {
        assert Seat(idx, dn + m) == idx;
      } else {
        assert Seat(idx, dn + m) == Seat(idx, dn + m - 6);
      }
    }
    ClockwiseEmpty(qs, n, 6 - dn, 6);
  }

  /** The walk from `idx` beyond `n` is the walk from `n`. */
  lemma WalkOnFromNext(ps: Table, qs: Table, idx: Idx, n: Idx, dn: nat, R: nat)
    requires forall j: Idx :: j != idx ==> qs[j] == ps[j]
    requires 1 <= dn < R <= 6 && Seat(idx, dn) == n
    ensures Clockwise(ps, idx, dn + 1, R) == Clockwise(qs, n, 1, R - dn)
  {
    ClockwiseShift(ps, idx, dn, dn + 1, R);
    forall m: nat | 1 <= m < R - dn
      ensures CanAct(ps[Seat(n, m)]) == CanAct(qs[Seat(n, m)])
    {
      SeatShift(idx, dn, dn + m);
      DistOfSeat(idx, dn + m);
    }
    ClockwiseAgree(ps, qs, n, 1, R - dn);
  }

  /** One step of the skip, on the tables before and after folding the seat
      it stands on: the rest of the walk is the walk from the next seat. */
  lemma SkipStep(ps: Table, qs: Table, idx: Idx, end: Idx, n: Idx)
    requires idx != end
    requires forall j: Idx :: j != idx ==> qs[j] == ps[j]
    requires !CanAct(qs[idx])
    requires NextActive(qs, Some(idx)) == Some(n)
    ensures Clockwise(ps, idx, 1, Reach(ps, idx, end)) == Skipped(qs, n, end)
  {
    NextAfter(ps, qs, idx, n);
    var dn := Dist(idx, n) as nat;
    var R := Reach(ps, idx, end);
    assert CanAct(ps[end]) == CanAct(qs[end]);
    ClockwiseEmpty(ps, idx, 1, dn);
    if n == end {
      assert R == dn;
      ClockwiseEmpty(ps, idx, 1, R);
    } else {
      SkipStepOn(ps, qs, idx, end, n, dn, R);
    }
  }

  lemma SkipStepOn(ps: Table, qs: Table, idx: Idx, end: Idx, n: Idx, dn: nat, R: nat)
    requires idx != end && n != end && n != idx
    requires forall j: Idx :: j != idx ==> qs[j] == ps[j]
    requires !CanAct(qs[idx]) && CanAct(ps[n]) && CanAct(ps[end]) == CanAct(qs[end])
    requires dn == Dist(idx, n) && 1 <= dn <= 5 && Seat(idx, dn) == n
    requires forall m: nat :: 1 <= m < dn ==> !CanAct(ps[Seat(idx, m)]) && !CanAct(qs[Seat(idx, m)])
    requires forall j: Idx :: j != idx && CanAct(ps[j]) ==> dn <= Dist(idx, j)
    requires R == Reach(ps, idx, end)
    requires Clockwise(ps, idx, 1, dn) == []
    ensures Clockwise(ps, idx, 1, R) == Skipped(qs, n, end)
  {
    if CanAct(ps[end]) {
      SeatOfDist(idx, end);
      assert dn < R;
    }
    ClockwiseSplit(ps, idx, 1, dn, R);
    assert Clockwise(ps, idx, dn, R) == [n] + Clockwise(ps, idx, dn + 1, R);
    WalkOnFromNext(ps, qs, idx, n, dn, R);
    assert Skipped(qs, n, end) == [n] + Clockwise(qs, n, 1, Reach(qs, n, end));
    if CanAct(ps[end]) {
      DistSplit(idx, n, end);
      assert Reach(qs, n, end) == R - dn;
    } else {
      assert R == 6 && Reach(qs, n, end) == 6;
      ClockwiseSplit(qs, n, 1, R - dn, 6);
      TailBehind(qs, idx, n, dn);
    }
  }

  lemma FoldAllStep(e: Engine, s: Idx, rest: seq<Idx>)
    requires Foldable(e.players, [s] + rest)
    ensures !e.players[s].folded
    ensures Foldable(FoldSeat(e, s).players, rest)
  {
    assert ([s] + rest)[0] == s;
    forall i | 0 <= i < |rest|
      ensures !FoldSeat(e, s).players[rest[i]].folded
    {
      assert rest[i] == ([s] + rest)[i + 1];
    }
    forall i, j | 0 <= i < j < |rest|
      ensures rest[i] != rest[j]
    {
      assert rest[i] == ([s] + rest)[i + 1] && rest[j] == ([s] + rest)[j + 1];
    }
  }

  /** autoFoldBetween(a, end) is the same as folding, in order, exactly the
      seats of `Skipped`: the starting seat if still in, then each seat
      clockwise before `end` that can act (all of them when `end` cannot act). */
  lemma {:induction false} AutoFoldFoldsSkipped(e: Engine, a: Idx, end: Idx)
    ensures Foldable(e.players, Skipped(e.players, a, end))
    ensures AutoFold(e, a, end) == FoldAll(e, Skipped(e.players, a, end))
    decreases SkipMeasure(e, a)
  {
    SkippedFoldable(e.players, a, end);
    if a != end {
      var e1 := FirstStep(e, a);
      var cw := Clockwise(e.players, a, 1, Reach(e.players, a, end));
      FirstStepFacts(e, a, end, cw);
      match NextActive(e1.players, Some(a))
      case None =>
      case Some(n) =>
        AutoFoldFoldsSkipped(e1, n, end);
        SkipClose(e, a, end, e1, n, cw);
    }
  }

  /** The state after the first step of the skip: the starting seat folded if
      it was still in. */
  function FirstStep(e: Engine, a: Idx): (e1: Engine)
    ensures forall j: Idx :: j != a ==> e1.players[j] == e.players[j]
    ensures !CanAct(e1.players[a])
  {
    if !e.players[a].folded then FoldSeat(e, a) else e
  }

  /** One unfolding of the skip, and what it folds, from `a`. */
  lemma FirstStepFacts(e: Engine, a: Idx, end: Idx, cw: seq<Idx>)
    requires a != end
    requires cw == Clockwise(e.players, a, 1, Reach(e.players, a, end))
    requires Foldable(e.players, Skipped(e.players, a, end))
    ensures Foldable(FirstStep(e, a).players, cw)
    ensures FoldAll(e, Skipped(e.players, a, end)) == FoldAll(FirstStep(e, a), cw)
    ensures NextActive(FirstStep(e, a).players, Some(a)).None? ==>
      AutoFold(e, a, end) == FirstStep(e, a) == FoldAll(e, Skipped(e.players, a, end))
    ensures NextActive(FirstStep(e, a).players, Some(a)).Some? ==>
      var n := NextActive(FirstStep(e, a).players, Some(a)).value;
      && AutoFold(e, a, end) == AutoFold(FirstStep(e, a), n, end)
      && SkipMeasure(FirstStep(e, a), n) < SkipMeasure(e, a)
  {
    var e1 := FirstStep(e, a);
    FirstFold(e, a, end, e1, cw);
    match NextActive(e1.players, Some(a))
    case None =>
      NoneLeft(e.players, e1.players, a, end);
      assert FoldAll(e1, cw) == e1;
    case Some(n) =>
      FirstStepShrinks(e, a, n);
  }

  lemma FirstStepShrinks(e: Engine, a: Idx, n: Idx)
    requires NextActive(FirstStep(e, a).players, Some(a)) == Some(n)
    ensures SkipMeasure(FirstStep(e, a), n) < SkipMeasure(e, a)
  {
  }

  /** The recursive step of AutoFoldFoldsSkipped: once the walk has moved on
      to `n`, what is left to fold from `n` is what was left after `a`. */
  lemma SkipClose(e: Engine, a: Idx, end: Idx, e1: Engine, n: Idx, cw: seq<Idx>)
    requires a != end
    requires forall j: Idx :: j != a ==> e1.players[j] == e.players[j]
    requires !CanAct(e1.players[a])
    requires NextActive(e1.players, Some(a)) == Some(n)
    requires cw == Clockwise(e.players, a, 1, Reach(e.players, a, end))
    requires Foldable(e.players, Skipped(e.players, a, end)) && Foldable(e1.players, cw)
    requires Foldable(e1.players, Skipped(e1.players, n, end))
    requires FoldAll(e, Skipped(e.players, a, end)) == FoldAll(e1, cw)
    requires AutoFold(e1, n, end) == FoldAll(e1, Skipped(e1.players, n, end))
    ensures FoldAll(e, Skipped(e.players, a, end)) == AutoFold(e1, n, end)
  {
    SkipStep(e.players, e1.players, a, end, n);
  }

  /** Folding the starting seat first. */
  lemma FirstFold(e: Engine, a: Idx, end: Idx, e1: Engine, cw: seq<Idx>)
    requires a != end
    requires e1 == if !e.players[a].folded then FoldSeat(e, a) else e
    requires cw == Clockwise(e.players, a, 1, Reach(e.players, a, end))
    requires Foldable(e.players, Skipped(e.players, a, end))
    ensures Foldable(e1.players, cw)
    ensures FoldAll(e, Skipped(e.players, a, end)) == FoldAll(e1, cw)
  {
    var sk := Skipped(e.players, a, end);
    if !e.players[a].folded {
      assert sk == [a] + cw;
      FoldAllStep(e, a, cw);
      assert sk[0] == a && sk[1..] == cw;
    } else {
      assert sk == cw;
    }
  }

  /** When no seat after `a` can act, the walk passes no one. */
  lemma NoneLeft(ps: Table, qs: Table, a: Idx, end: Idx)
    requires forall j: Idx :: j != a ==> qs[j] == ps[j]
    requires NextActive(qs, Some(a)).None?
    ensures Clockwise(ps, a, 1, Reach(ps, a, end)) == []
  {
    forall m: nat | 1 <= m < Reach(ps, a, end)
      ensures !CanAct(ps[Seat(a, m)])
    {
      DistOfSeat(a, m);
      assert Seat(a, m) != a;
    }
    ClockwiseEmpty(ps, a, 1, Reach(ps, a, end));
  }
}

=== FILE: street_flow.dfy ===
/** Turn and street flow of the engine: the street-completion test, turn
    advancement after an action, the transition to the next street and the
    confirmation of board cards. */
module StreetFlow {
  import opened Wrappers
  import opened PokerTypes
  import opened EngineState

  /** Every player who can still act has acted on this street. */
  predicate AllActed(ps: Table)
  {
    forall i: Idx :: CanAct(ps[i]) ==> ps[i].hasActed
  }

  /** Every player still in has matched the bet, or is (nearly) all-in. */
  predicate AllMatched(ps: Table, bet: real)
  {
    forall i: Idx :: !ps[i].folded ==> ps[i].contributed >= bet || AllInForMatching(ps[i])
  }

  /** Preflop with no raise, the big blind keeps the right to act. */
  predicate BigBlindOption(e: Engine)
  {
    var bb := e.players[IndexOf(BB)];
    e.street.phase == Preflop && !bb.folded && e.street.raiseCount == 0 && !bb.hasActed
  }

  /** isStreetComplete(next), following the source's steps: at most one player
      left, nobody able to act, someone still to act, someone short of the bet,
      the big blind's option, the return to the last aggressor, no next seat.
      The contract shows that the last-aggressor and no-next-seat steps never
      decide anything: every path that reaches them answers true. */
  function IsStreetComplete(e: Engine, next: Option<Idx>): (r: bool)
    ensures r <==>
      || ActiveCount(e.players) <= 1
      || !AnyCanAct(e.players)
      || (AllActed(e.players) && AllMatched(e.players, e.street.currentBet) && !BigBlindOption(e))
  {
    if ActiveCount(e.players) <= 1 then true
    else if !AnyCanAct(e.players) then true
    else if !AllActed(e.players) then false
    else if !AllMatched(e.players, e.street.currentBet) then false
    else if e.street.phase == Preflop then
      if BigBlindOption(e) then false
      else if e.street.lastAggressor.Some? && next == e.street.lastAggressor then true
      else if next.None? then true
      else true
    else if e.street.lastAggressor.Some? && next.Some? && next == e.street.lastAggressor then true
    else if next.None? then true
    else true
  }

  /** `r` is the opening state of the street after the one in `e`: street
      contributions and acted flags cleared, stacks, totals and folds kept,
      the phase one step on, the pot carried over as the starting pot, no bet,
      no aggressor, no raise. */
  predicate NextStreetOf(e: Engine, r: Engine)
  {
    && e.street.phase != River
    && (forall i: Idx :: r.players[i] == e.players[i].(contributed := 0.0, hasActed := false))
    && r.street == Street(NextPhase(e.street.phase), e.street.pot, e.street.pot, 0.0, None, [], 0)
    && r.actions == e.actions
    && r.heroPosition == e.heroPosition && r.stackSize == e.stackSize && r.handResult == e.handResult
  }

  /** setPostflopFirstActor: SB if SB can act, else the next seat after SB
      that can act; when nobody can act there is no actor and the engine waits
      for the board. This is the first seat, counting from SB, that can act. */
  function SetPostflopFirstActor(e: Engine): (r: Engine)
    ensures r.actor == NextActive(e.players, None)
    ensures r.waitingForBoard == (e.waitingForBoard || !AnyCanAct(e.players))
    ensures r.(actor := e.actor, waitingForBoard := e.waitingForBoard) == e
  {
    var sb := IndexOf(SB);
    FirstFromSB(e.players);
    if CanAct(e.players[sb]) then e.(actor := Some(sb))
    else
      match NextActive(e.players, Some(sb))
      case None => e.(actor := None, waitingForBoard := true)
      case Some(n) => e.(actor := Some(n))
  }

  /** Searching from SB (seat 0) finds the same seat as searching from the
      start of the table, unless SB itself can act. */
  lemma FirstFromSB(ps: Table)
    ensures CanAct(ps[0]) ==> NextActive(ps, None) == Some(0)
    ensures !CanAct(ps[0]) ==> NextActive(ps, Some(0)) == NextActive(ps, None)
  {
    var a := NextActive(ps, None);
    if !CanAct(ps[0]) {
      var b := NextActive(ps, Some(0));
      if a.Some? {
        assert b.Some?;
        assert Dist(0, b.value) <= Dist(0, a.value);
        assert Dist(-1, a.value) <= Dist(-1, b.value);
      }
    }
  }

  function ResetStreet(ps: Table): (qs: Table)
    ensures forall i: Idx :: qs[i] == ps[i].(contributed := 0.0, hasActed := false)
  {
    seq(6, i requires 0 <= i < 6 => ps[i].(contributed := 0.0, hasActed := false))
  }

  lemma ResetStreetFacts(ps: Table)
    ensures StreetSum(ResetStreet(ps)) == 0.0
    ensures TotalSum(ResetStreet(ps)) == TotalSum(ps)
    ensures AnyCanAct(ResetStreet(ps)) == AnyCanAct(ps)
  {
    var qs := ResetStreet(ps);
    assert forall i: Idx :: CanAct(qs[i]) == CanAct(ps[i]);
  }

  /** prepareNextStreet: opens the next street and picks its first actor. */
  function PrepareNextStreet(e: Engine): (r: Engine)
    requires e.street.phase != River
    ensures NextStreetOf(e, r)
    ensures r.actor == NextActive(r.players, None)
    ensures r.waitingForBoard == (e.waitingForBoard || !AnyCanAct(e.players))
    ensures Inv(e) ==> Inv(r)
  {
    var st := e.street;
    var started := e.(players := ResetStreet(e.players),
                     street := Street(NextPhase(st.phase), st.pot, st.pot, 0.0, None, [], 0));
    ResetStreetFacts(e.players);
    SetPostflopFirstActor(started)
  }

  /** advanceToNextActor: after an action, end the hand when at most one
      player is left; otherwise, if the street is complete, end the hand on
      the river or wait for the board with the next street prepared; if it is
      not, hand the turn to the next seat that can act. */
  function Advance(e: Engine): (r: Engine)
    ensures ActiveCount(e.players) <= 1 ==> r == e.(actor := None)
    ensures ActiveCount(e.players) > 1 && IsStreetComplete(e, None) && e.street.phase == River ==>
      r == e.(actor := None)
    ensures ActiveCount(e.players) > 1 && IsStreetComplete(e, None) && e.street.phase != River ==>
      && NextStreetOf(e, r) && r.waitingForBoard
      && r.actor == NextActive(r.players, None)
    ensures !IsStreetComplete(e, None) ==>
      && r == e.(actor := NextActive(e.players, e.actor))
      && r.actor.Some? && CanAct(e.players[r.actor.value])
    ensures Inv(e) ==> Inv(r)
  {
    if ActiveCount(e.players) <= 1 then e.(actor := None)
    else
      var next := NextActive(e.players, e.actor);
      var check := if next.None? then e.actor else next;
      if IsStreetComplete(e, check) then
        if e.street.phase == River then e.(actor := None)
        else PrepareNextStreet(e.(waitingForBoard := true))
      else if next.None? then e.(actor := None)
      else e.(actor := next)
  }

  /** What advancing the turn after the recorded state `rec` leaves in `r`:
      with at most one player left, or on a completed river, nobody is to act;
      a completed earlier street gives way to the next phase, waiting for its
      board; a street still open stays on with a seat to act. */
  predicate TurnPassed(rec: Engine, r: Engine)
  {
    && (ActiveCount(rec.players) <= 1 ==> r.actor.None?)
    && (ActiveCount(rec.players) > 1 && IsStreetComplete(rec, None) && rec.street.phase == River ==>
          r.actor.None? && r.street.phase == River)
    && (ActiveCount(rec.players) > 1 && IsStreetComplete(rec, None) && rec.street.phase != River ==>
          r.street.phase == NextPhase(rec.street.phase) && r.waitingForBoard)
    && (!IsStreetComplete(rec, None) ==>
          r.street.phase == rec.street.phase && r.actor.Some? && CanAct(r.players[r.actor.value]))
  }

  /** Advancing from `x`, which is `rec` with whatever turn it carries, passes
      the turn on as TurnPassed describes. */
  lemma AdvancePasses(x: Engine, rec: Engine)
    requires x == rec.(actor := x.actor)
    ensures TurnPassed(rec, Advance(x))
  {
    assert IsStreetComplete(x, None) == IsStreetComplete(rec, None);
  }

  /** confirmBoard: called once the next street's cards are entered. On the
      river it stops waiting and, if nobody can act, ends the hand. On the flop
      or turn it does nothing unless waiting; otherwise it stops waiting, and
      if nobody can act it moves straight on to the following street and
      waits for that board too. */
  function ConfirmBoard(e: Engine): (r: Engine)
    ensures e.street.phase == River ==>
      r == e.(waitingForBoard := false, actor := if AnyCanAct(e.players) then e.actor else None)
    ensures e.street.phase != River && !e.waitingForBoard ==> r == e
    ensures e.street.phase != River && e.waitingForBoard && AnyCanAct(e.players) ==>
      r == e.(waitingForBoard := false)
    ensures e.street.phase in {Flop, Turn} && e.waitingForBoard && !AnyCanAct(e.players) ==>
      NextStreetOf(e, r) && r.waitingForBoard && r.actor.None?
    ensures Inv(e) ==> Inv(r)
  {
    var anyone := AnyCanAct(e.players);
    if e.street.phase == River then
      if !anyone then e.(actor := None, waitingForBoard := false)
      else e.(waitingForBoard := false)
    else if !e.waitingForBoard then e
    else
      var e1 := e.(waitingForBoard := false);
      if !anyone && (e.street.phase == Turn || e.street.phase == Flop) then
        PrepareNextStreet(e1).(waitingForBoard := true)
      else e1
  }
}

=== FILE: wrappers.dfy ===
/** Optional values and success/failure results, used in place of the
    source's `undefined`/`null` fields and its thrown errors. */
module Wrappers {

  datatype Option<+T> = None | Some(value: T)

  datatype Result<+R, +E> = Success(value: R) | Failure(error: E)

  function Min(a: real, b: real): (m: real)
    ensures m <= a && m <= b
    ensures m == a || m == b
  {
    if a <= b then a else b
  }
}
